=== FILE: README.md ===
# life-log: a Dafny model of the watch application's data layer

life-log is a Pebble watch application for keeping a personal log of events. The phone sends it a catalog of event names:

- an entry starting with `+` is a long event, which has a begin and an end;
- an entry starting with `-` is hidden;
- any other entry is a short event.

The watch lists the catalog in menus. Selecting a row records `(time, id)` in a circular log page. `life-log.c` also has a sender that would send the phone a line `<date-time>,<id>,<title>`. The line's composer is modelled, but no code in the modelled files calls the sender, so a selection sends nothing.

This project models the core of that application in Dafny and proves what it does:

- **String table** (`strlist.dfy`, module `StrList`). `struct string_list` is a class with:
  - a byte buffer;
  - the 83-slot offsets array;
  - a ghost list of the strings it holds.

  Its invariant `Valid` says that every offset below `count` starts a NUL-terminated string inside the buffer, that `count <= 82`, and that `size` fits in 16 bits. `strlist_append`, `strlist_prepare`, `strlist_reset` and `strlist_set_from_dict` each keep it and state the new contents exactly. The one byte that `malloc(1)` returns is set to NUL in `Append` and `Prepare`, which the source never does; the versions as written are under "## Findings".
- **Sorted string set** (`strset.dfy`, `StrSet`):
  - the bisection `search`, with its loop invariant;
  - `strset_search`;
  - `strset_include`, which appends and then rotates the offsets in place.

  Sortedness is preserved when the table has room, and is broken when it is full.
- **Catalog** (`names.dfy`, `catalog.dfy`; modules `Names` and `Catalog`). These hold:
  - the globals of `global.c` as a class;
  - the derivation of dense long ids and begin/end labels (`preprocess_long_events`);
  - the update rules of the inbound message handler;
  - the row arithmetic shared by both menus. Primary rows come first, in catalog order; then come the secondary rows of the long entries, in long-id order. These rows partition the menu body, and the function that finds a row's owner (`RowOwner`) is proved to invert the placement.
- **Event log** (`eventlog.dfy`, `EventLog`):
  - the round-robin page of `(time, id)` records and its write cursor;
  - the view's scan and wrap detection;
  - the newest-first walk that lists the records;
  - the round-robin shape that recording keeps when the clock moves on between records. On such a page the view lists the records newest first in cursor order, the record just made at its head, whether the page is still filling up or full.
- **Menus** (`menu.dfy`, `eventmenu.dfy`, `mainmenu.dfy`; modules `Menus`, `EventMenus`, `MainMenus`). These cover:
  - the row layout both rebuilds write;
  - the selection dispatch of the event menu, which records a begin or an end by the running bit, toggles that bit and notes the last-seen time;
  - the selection dispatch of the main menu, which the application actually opens.
- **Entry points** (`lifelog.dfy`, `LifeLog`):
  - the inbound handler: the update rules, then the main-menu refresh;
  - the outbound line composed by `recorded_event_image`, with its RFC 3339 (section 5.6) time stamp, proved against a reference reader of the line format (`ParseLine`);
  - the sender's fallback to the bare title.

Some inputs are parameters rather than calls:

- The current time is the parameter `now`.
- A broken-down UTC time (`Tm`, or `None` when `gmtime` fails) stands for `gmtime`.
- The view's `localtime` and `strftime` are a formatter function `int -> Option<seq<byte>>`.
- The inbound message is a map from key to typed value.

How the code encodes ids and titles records:

- A selection records catalog index + 1 for a begin and catalog index + 128 for an end (`event_menu.c`, `main_menu.c`).
- A log record whose id is an end id, or any id above the catalog size, is titled by its time stamp alone (`EventLog.EndIdUntitled`).
- A record with a begin id is titled by the catalog name.
- The running bits are indexed by catalog index.

## Model

| member | source | states |
|---|---|---|
| Base.Truncate | src/life-log.c:82-84 | what `strncpy` plus the forced terminator keep: a prefix of the input, all of it when it fits, exactly `n` bytes otherwise, NUL-free when the input is |
| Base.StrAtExtend | src/strlist.c:54-58 | a string terminated inside the buffer reads the same after bytes are appended to the buffer |
| Base.StrAtPlaced | src/strlist.c:48-50 | bytes copied together with their NUL read back, from where they were placed, as exactly those bytes |
| Base.CompareZero | src/strset.c:43-49 | the comparison is 0 exactly when the two strings are equal, so a hit is an exact match |
| Base.CompareFlip | src/strset.c:51-55 | swapping the operands negates the comparison |
| Base.LessTransitive | src/strset.c:51-55 | the order is transitive, which the bisection relies on |
| Base.LessIrreflexive | src/strset.c:51-55 | no string is below itself |
| Base.SearchCompareIsCompare | src/strset.c:43-44 | `strncmp` over the key's length, with a longer stored item counted as greater, is exactly the byte order in which a proper prefix sorts first |
| Dict.LowByte | src/life-log.c:69-71 | `value->uint8` of an integer tuple is its low byte: an unsigned value below 256 itself, a small negative signed value plus 256 |
| StrList.FieldRoom | src/strlist.h:28 | when all the string fields of a range fit in the 16-bit size, so does each next one appended by the loop |
| StrList.Clamp | src/strlist.c:95-97 | a count of 83 or more becomes 82 |
| StrList.StringList.constructor | src/global.c:19-22 | a zero-initialised table holds no strings and no buffer |
| StrList.StringList.UnsafeItem | src/strlist.h:32-33 | given `i < count`, the string at `data + offsets[i]` is the `i`-th string |
| StrList.StringList.Item | src/strlist.h:35-36 | the `i`-th string when `i < count`, the null pointer otherwise |
| StrList.StringList.Append | src/strlist.c:21-62 | succeeds exactly when `count + 1 < 83`; a refusal changes nothing; on success the strings gain `s` at the end and no other offset moves; an empty string records offset 0; the first string builds `[0] + s + [0]` with offset 1; later strings are copied with their NUL at the old size; the invariant is kept |
| StrList.StringList.AppendEmptyAsWritten | src/strlist.c:29-39 | the empty-string path on an unallocated table as written: offset 0 is recorded over a byte never set, and when that byte is not 0 the recorded string is unterminated and the invariant is lost |
| StrList.StringList.Prepare | src/strlist.c:64-72 | the corrected half of the second Findings row: succeeds, never changes `count` or the strings, allocates a buffer holding just the leading NUL when there is none, and leaves an allocated table unchanged, so it is idempotent |
| StrList.StringList.PrepareAsWritten | src/strlist.c:64-72 | the byte from `malloc(1)` at line 67 is never written: on an unallocated table the buffer is that one byte, and when it is not a NUL the table no longer satisfies its invariant, so an empty string appended next (offset 0) is not terminated |
| StrList.StringList.Reset | src/strlist.c:74-86 | the buffer becomes the single NUL, with size 1 and no strings |
| StrList.StringList.SetFromDict | src/strlist.c:90-107 | the table holds exactly the string fields at keys `first .. first + count - 1`, in key order, skipping absent and non-string keys, with the count clamped to 82 |
| StrSet.Rotated | src/strset.c:78-83 | moving the last element to `idx` keeps the ones before, shifts the rest up by one, and keeps the length |
| StrSet.BetweenAbsent | src/strset.c:58-59 | a split point exists only for a key the set does not hold |
| StrSet.InsertSorted | src/strset.c:72-85 | appending a missing key and rotating it to its split point inserts it there and keeps the set strictly ascending |
| StrSet.RotatedUnsorted | src/strset.c:75-83 | on a full set the append is refused, yet the rotation runs and breaks sortedness unless the split point is the last index |
| StrSet.Search | src/strset.c:31-60 | a hit is an index holding the key; on a sorted set it hits exactly when the key is present, and a miss returns the split point: all below are less than the key, all from it on are greater |
| StrSet.Find | src/strset.c:89-97 | the index holding the key, or no index; on a sorted set there is no index exactly when the key is absent |
| StrSet.RotateSlots | src/strset.c:79-82 | the `memmove` and store rotate `offsets[idx..n)` right by one and leave the slots from `n` on alone |
| StrSet.Rotate | src/strset.c:78-83 | the strings rotate like the offsets; buffer, size and count are unchanged and the invariant is kept |
| StrSet.Include | src/strset.c:63-86 | on a sorted set: a present key returns its index and changes nothing; a missing key returns its split point; with room, a missing key is inserted at its split point, the set stays sorted and the index reads back the key; on a full set the existing strings are rotated instead |
| Names.MenuSizeCounts | src/event_menu.c:144-153 | the row count `size` (2 per long entry, 1 per other shown entry) is the number of shown entries plus the number of long ones |
| Names.LongIdRange | src/life-log.c:16-24 | long ids run from 1 to the number of long entries, strictly ascending in catalog order |
| Names.NthShownOf | src/event_menu.c:86-94 | the shown entry counted `k`-th from the first body row is the only one counted `k`-th |
| Names.NthLongOf | src/life-log.c:24 | the long entry with id `L` is the only one with that id |
| Names.SecondaryRowFormula | src/event_menu.c:208-210 | the row `extra + size - long_event_count + long_id - 1` is the long entry's place after all primary rows, in long-id order |
| Names.RowOwner | src/event_menu.c:194-240 | a row owned as primary belongs to a shown entry, one owned as secondary to a long entry |
| Names.RowOwnerPrimary | src/event_menu.c:203-235 | the `k`-th row after the leading ones belongs to the `k`-th shown entry, as its primary row |
| Names.PrimaryRowOwner | src/event_menu.c:203-235 | a shown entry's primary row `extra + k` lies among the primary rows and is owned by that entry |
| Names.SecondaryRowOwner | src/event_menu.c:208-227 | a long entry's secondary row lies in `[extra + shown, extra + size)` and is owned by that entry |
| Names.OwnerRow | src/event_menu.c:153-191 | conversely, every body row is its owner's primary or secondary row; a row has no owner exactly when it lies outside `[extra, num_items)`; the placeholder is row `extra` of an empty body |
| Names.Label | src/life-log.c:26-30 | the `snprintf` of prefix and name without its `+` into 128 bytes is under 128 bytes and NUL-free |
| Names.Labels | src/life-log.c:13-31 | there is one label per long entry |
| Names.LabelAt | src/life-log.c:24-30 | the label of long entry `i` sits at its long id minus one |
| Catalog.NamesCount | src/life-log.c:68-71 | a count is read exactly when key 1000 holds an integer tuple |
| Catalog.NewPrefix | src/life-log.c:80-96 | a prefix update keeps at most 31 bytes and holds no NUL |
| Catalog.Catalog.constructor | src/global.c:19-26 | the zeroed globals, with prefixes "Start of " and "End of ", are consistent |
| Catalog.Catalog.Preprocess | src/life-log.c:8-32 | afterwards every long entry has the next dense id, every other entry id 0, and `long_event_count` is the number of long entries; the begin and end tables hold exactly one label per long entry; id slots past the catalog are untouched |
| Catalog.Catalog.PreprocessEntry | src/life-log.c:16-31 | one loop round extends the ids, count and labels from the first `i` entries to the first `i + 1` |
| Catalog.Catalog.PreprocessLong | src/life-log.c:24-30 | a long entry gets the next id and its two labels appended |
| Catalog.Catalog.AppendLabel | src/life-log.c:26-30 | the formatted label is appended as the table's next string |
| Catalog.Catalog.Update | src/life-log.c:68-99 | names are replaced exactly when the count tuple is an integer; each prefix is replaced exactly when a string tuple sits at its key; labels and ids are derived again exactly when one of these happened, and are otherwise untouched |
| Catalog.Catalog.Receive | src/life-log.c:68-96 | the three field updates and the result that says whether any happened |
| EventLog.ScanFrom | src/event_log.c:78-83 | the scan from slot `i` stops at the first slot without a time or without a stamp |
| EventLog.Populated | src/event_log.c:78-83 | the number of records the view counts is the leading run of written, formattable slots |
| EventLog.Wrap | src/event_log.c:85-92 | the wrap point is the first slot whose time is below its predecessor's, and no slot before it is |
| EventLog.First | src/event_log.c:85-92 | `first` is the wrap point, or 0 |
| EventLog.Last | src/event_log.c:85-92 | `last` is just before the wrap point, or the last populated slot when there is no wrap |
| EventLog.StepBack | src/event_log.c:113 | `(j + m - 1) % m` steps back one slot, from 0 to `m - 1` |
| EventLog.Walk | src/event_log.c:113-128 | the walk starts at `last`, ends at `first`, passes `first` only at its end, and steps back one slot each time |
| EventLog.SlotsAsWritten | src/event_log.c:113-128 | the source's walk modulo the page length visits between 1 and 51 slots |
| EventLog.Slots | src/event_log.c:113-128 | the corrected walk visits no more slots than there are populated records |
| EventLog.SlotsCover | src/event_log.c:95-128 | the corrected walk visits every populated slot exactly once, filling the rows allocated for them |
| EventLog.SlotsAsWrittenOverrun | src/event_log.c:95-128 | on a page that wrapped but is not full, the source's walk visits all 51 slots, more than the rows allocated, and visits an unpopulated slot |
| EventLog.SlotsAgree | src/event_log.c:95-128 | the source's walk and the corrected one agree exactly when the page never wrapped or is full |
| EventLog.WrappedExample | src/event_log.c:29-51 | after a restart puts the cursor back at 0, the page `[3, 1, 2, 0, ...]` makes the source's walk 51 slots long, while the corrected walk reads 0, 2, 1 |
| EventLog.PopulatedAt | src/event_log.c:78-83 | a run of shown slots followed by an unshown slot is the populated count |
| EventLog.WrapStep | src/event_log.c:85-92 | each branch of the wrap detection at slot `i` moves `first` and `last` to their values over the first `i + 1` slots |
| EventLog.NewestFirst | src/event_log.c:113-128 | on a page written round-robin with a clock that does not go back, the walk never goes from a record to a later one |
| EventLog.RecordedNewest | src/event_log.c:46-51 | on any page whose populated run has not wrapped, recording in the slot just after the run with a time no earlier than its last record makes the new record the first row of the view; pages that wrapped are covered by RecordHeadsView |
| EventLog.WrapNone | src/event_log.c:85-92 | the detection finds no wrap point among records that never step back in time |
| EventLog.WrapAt | src/event_log.c:85-92 | the detection's wrap point is the first record older than the one before it |
| EventLog.NextSlot | src/event_log.c:51 | the cursor moves to the next slot, or back to slot 0 after the last one |
| EventLog.EmptyRoundRobin | src/event_log.c:29-44 | the zeroed page with the cursor at slot 0, as `Init` leaves an empty stored page, is in round-robin shape |
| EventLog.RecordRoundRobin | src/event_log.c:46-51 | recording a record later than every stored one keeps the round-robin shape; the page is full afterwards exactly when it was full or the cursor was at the last slot |
| EventLog.RecordOnFull | src/event_log.c:46-51 | on a full page the record overwrites the oldest one, at the cursor, and the page stays in shape with the next slot the oldest |
| EventLog.RecordWhileFilling | src/event_log.c:46-51 | before the last slot, a record extends the written run and the page is not yet full |
| EventLog.RecordFillsUp | src/event_log.c:46-51 | a record in the last slot fills the page, and the cursor wraps to slot 0 with slot 0 the oldest |
| EventLog.FillingView | src/event_log.c:78-128 | on a page still filling up, the scan counts the records below the cursor and the walk lists them from the slot before the cursor back to slot 0 |
| EventLog.FullView | src/event_log.c:78-128 | on a full page the scan counts all 51 records and the walk lists them from the slot before the cursor back round the page to the cursor |
| EventLog.RoundRobinNewestFirst | src/event_log.c:113-128 | on a page in round-robin shape every row of the view holds a strictly older record than the row above it |
| EventLog.RecordHeadsView | src/event_log.c:46-51 | recording on a page in round-robin shape with a clock that has moved on keeps the shape, and the view then lists all records newest first in cursor order with the new record first, also once the page has wrapped
| EventLog.EndIdUntitled | src/event_log.c:116-126 | a record with an end id is titled by its time stamp, since the catalog holds at most 82 names |
| EventLog.View | src/event_log.c:95-128 | one row per populated record, or the single row "No event logged." |
| EventLog.EventLog.Init | src/event_log.c:28-44 | the page is the stored prefix followed by zeroed slots, and the cursor starts at 0 |
| EventLog.EventLog.Record | src/event_log.c:46-63 | id 0 changes nothing; any other id writes `(now, id)` at the cursor, leaves every other slot alone, and advances the cursor modulo 51 |
| EventLog.EventLog.Scan | src/event_log.c:76-93 | the time stamps are those of the populated records, and `first` and `last` are their wrap point and newest slot |
| EventLog.EventLog.DetectWrap | src/event_log.c:85-92 | one round of the wrap detection computes `first` and `last` over one slot more |
| EventLog.EventLog.AppendStamp | src/event_log.c:81-83 | appending a stamp extends the stamp list by that record's stamp |
| EventLog.EventLog.RowAt | src/event_log.c:116-126 | the row is the event name with the stamp when `1 <= id <= count`, the stamp alone otherwise |
| EventLog.EventLog.Rebuild | src/event_log.c:68-131 | the rows are the view of the page: the corrected walk, or the placeholder row |
| EventLog.EventLog.Rows | src/event_log.c:111-128 | the loop from `last` back to `first` fills exactly the view's rows |
| Menus.CountRows | src/event_menu.c:144-151 | the counting loop computes `size`: 2 per long entry, 1 per other shown entry |
| Menus.LongRows | src/event_menu.c:208-230 | `long_id` and the 8-bit `other_j` give the secondary row, and the two labels are the entry's begin and end labels |
| Menus.EventCode | src/event_menu.c:94-124 | a selection records an id exactly on a primary or secondary row, and that id is the owner's begin or end id |
| Menus.EventRunning | src/event_menu.c:97-124 | the running bits change at most at the selected entry, and only on a long entry's primary row |
| Menus.SelectTwice | src/event_menu.c:97-103 | selecting a long entry's primary row twice records begin then end (end then begin when running) and restores the bit, so the toggle is an involution |
| Menus.RowsMatchCodes | src/event_menu.c:211-231 | a long entry's two rows record opposite ends, and each row's label names the end it records |
| Menus.CodeDecodes | src/event_menu.c:99-121 | every recorded id is between 1 and 255 and decodes back to the selected row's entry; only long entries record ends |
| Menus.StepHidden | src/event_menu.c:199-201 | a hidden entry writes no rows |
| Menus.StepShort | src/event_menu.c:234-239 | a short entry's row at `j` leaves the earlier entries' rows in place |
| Menus.StepLong | src/event_menu.c:207-233 | a long entry's two rows leave the earlier entries' rows in place |
| Menus.EntriesShow | src/event_menu.c:194-241 | after the fill loop every body row is the row its owner calls for |
| Menus.MainCode | src/main_menu.c:78-94 | the main menu records an id exactly on a primary row |
| Menus.MainIsEventMenu | src/main_menu.c:149-188 | the main menu's body is the event menu's with nothing running; it records the same on primary rows and nothing on the end rows |
| Menus.MainIgnoresRunning | src/main_menu.c:66-95 | the main menu records a long entry's begin id on its primary row whatever runs, where the event menu with that entry running records its end id |
| EventMenus.EventMenuContext.constructor | src/event_menu.c:251-261 | a context starts with no rows and the caller's number of leading rows |
| EventMenus.EventMenu.constructor | src/event_menu.c:37-38 | nothing is running at start |
| EventMenus.EventMenu.Toggle | src/event_menu.c:67-72 | exactly one bit flips |
| EventMenus.EventMenu.Rebuild | src/event_menu.c:138-244 | the body shows the catalog with the current running bits; the leading rows survive; a buffer whose row count is unchanged is reused |
| EventMenus.EventMenu.Locate | src/event_menu.c:86-131 | the search finds the selected row's owner exactly when the row is a primary or secondary row |
| EventMenus.EventMenu.IsSecondaryRow | src/event_menu.c:115-117 | the dispatch's secondary-row test holds exactly on the row the rebuild placed |
| EventMenus.EventMenu.DoRecordEvent | src/event_menu.c:74-136 | records the selected row's code, updates the running bits and the last-seen time, and keeps the menu showing the catalog; the leading rows, the placeholder and rows past the end change nothing |
| EventMenus.EventMenu.Select | src/event_menu.c:94-129 | the action for the found owner: its code logged, its bit flipped on a long primary row, its last-seen time noted; the menu is rebuilt only for long entries |
| EventMenus.EventMenu.SelectLong | src/event_menu.c:97-105 | records end if running, else begin; flips the bit; notes the time; rebuilds |
| EventMenus.EventMenu.SelectShort | src/event_menu.c:106-110 | records the begin id and notes the time |
| EventMenus.EventMenu.SelectEnd | src/event_menu.c:115-124 | records begin if running, else end, without a flip; notes the time; rebuilds |
| EventMenus.EventMenu.Fill | src/event_menu.c:194-241 | the loop writes every entry's rows so the body shows the catalog, and leaves the leading rows alone |
| EventMenus.EventMenu.FillRows | src/event_menu.c:194-241 | after the loop every shown entry's primary row and every long entry's secondary row hold their titles; the leading rows are untouched |
| EventMenus.EventMenu.FillEntry | src/event_menu.c:197-240 | one round puts entry `i`'s rows in place |
| EventMenus.PassEntry | src/event_menu.c:91-130 | a row that is neither of an entry's rows does not belong to it, so the search may move on |
| MainMenus.MainMenu.constructor | src/main_menu.c:27-33 | no window, no rows, nothing seen |
| MainMenus.MainMenu.Load | src/main_menu.c:193-204 | the stored last-seen prefix is read back, and the rows show the catalog |
| MainMenus.MainMenu.Update | src/main_menu.c:225-241 | with the window loaded the rows are rebuilt to show the catalog; otherwise nothing changes |
| MainMenus.MainMenu.Rebuild | src/main_menu.c:104-191 | row 0 shows the log; then come the placeholder, or the begin labels and names followed by the end labels |
| MainMenus.MainMenu.Fill | src/main_menu.c:149-188 | the loop writes every row the main menu calls for |
| MainMenus.MainMenu.FillEntry | src/main_menu.c:150-187 | one round puts the begin label or name at `j` and the end label at `other_j` |
| MainMenus.MainMenu.DoRecordEvent | src/main_menu.c:66-95 | only a primary row records, and it records its entry's begin id and notes the time; row 0, the placeholder and the end rows change nothing |
| MainMenus.LocatePrimary | src/main_menu.c:78-90 | the search finds an entry exactly when the row is a primary row, and it is that row's owner |
| MainMenus.MainRowsShow | src/main_menu.c:137-188 | the log row followed by the nothing-running event rows is the main menu |
| MainMenus.PassPrimary | src/main_menu.c:81-89 | a row that is not an entry's primary row is not owned as primary by it |
| LifeLog.InboxReceived | src/life-log.c:34-102 | the catalog update rules, then the main menu shows the updated catalog whenever its window is loaded |
| LifeLog.Padded | src/life-log.c:118 | a zero-padded field of `width` digits reads back as the number |
| LifeLog.Rfc3339 | src/life-log.c:118 | "%FT%TZ" prints 20 bytes without NUL or comma |
| LifeLog.Decimal | src/life-log.c:133-134 | `%u` prints digits without a leading zero, at most 3 for a byte |
| LifeLog.DecimalValue | src/life-log.c:133-134 | the printed digits read back as the number |
| LifeLog.Line | src/life-log.c:118-134 | the composed line starts with the time stamp and a comma and ends with a comma and the title |
| LifeLog.FieldEnd | src/life-log.c:133-134 | the reference reader's field scan: the bytes before it hold no comma, and it stops at a comma or the end |
| LifeLog.FieldEndAt | src/life-log.c:133-134 | the reference reader's first field of a line is exactly the comma-free field written before the first comma |
| LifeLog.ParseLine | src/life-log.c:133-134 | a reference reader of the line format, independent of the composer: a line it accepts is its stamp (without a comma), a comma, the id digits, a comma and its title |
| LifeLog.LineParses | src/life-log.c:133-134 | a line whose stamp has no comma reads back as its stamp, id and title, whatever the title holds |
| LifeLog.ImageParses | src/life-log.c:118-134 | every line built from an RFC 3339 stamp reads back as its three fields |
| LifeLog.CopyTruncated | src/life-log.c:133-134 | `snprintf` copies as much as fits before a NUL, leaves the rest of the buffer alone, and returns the full length |
| LifeLog.Strftime | src/life-log.c:118-124 | the stamp and its NUL when both fit, with the stamp's length returned; 0 otherwise, when C leaves the buffer unspecified and the model chooses to leave it unchanged (no caller reads it then) |
| LifeLog.RecordedEventImage | src/life-log.c:104-143 | returns 0 exactly when there is no time or its stamp does not fit with its NUL; otherwise returns the full line's length, with the buffer holding the line truncated to fit |
| LifeLog.PrintRecord | src/life-log.c:133-142 | the `,id,title` part appended after a stamp that fits: returns the full line's length (never 0) and leaves the buffer holding the line truncated to fit |
| LifeLog.TruncateJoin | src/life-log.c:133-134 | cutting the line to the buffer keeps the whole stamp and the part of the rest that fits after it |
| LifeLog.NoNulJoin | src/life-log.c:133-134 | the stamp and the decimal id and title, none holding a NUL, joined hold none either, so the line reads back whole |
| LifeLog.ImageHolds | src/life-log.c:118-142 | after both copies the buffer reads as the stamp followed by as much of the rest as fits |
| LifeLog.OutboundTitle | src/life-log.c:171-174 | the title field is the line as the 256-byte buffer holds it, or the bare title when there is no time |

## Left out

- Allocation failure. `malloc` and `realloc` are taken to succeed, so `Append`, `Prepare`, `Reset`, `SetFromDict` and both rebuilds never take their failure paths. The null-pointer guards of `strlist_append` and `strlist_reset` have no counterpart either, since Dafny references are never null.
- StrList.StringList.Append: on the path that appends (the table is not full), requires `Room(s)`, that the 16-bit `size` does not wrap. The source adds there without a check, and the model does not describe the wrapped table.
- StrSet.Include: requires `Room(key)` when the set is not full, unless the set is sorted and already holds the key. On an unsorted set the bisection may also find a present key and return before appending; the model still asks for room there.
- StrList.StringList.SetFromDict: requires that the new names fit in 16 bits of buffer (`Fits`). Catalog.Catalog.Receive, Catalog.Catalog.Update and LifeLog.InboxReceived carry the same precondition.
- Persistence (`persist_read_data`, `persist_write_data`, `persist_*_string`). `strlist_load` and `strlist_store` have no body in the source files modelled, and are not part of this model. Stored data enters only as a parameter: the event page in `EventLog.EventLog.Init`, the last-seen times in `MainMenus.MainMenu.Load`.
- The clock and the time conversions. `time(0)` is the parameter `now`, and `gmtime` is the `Tm` argument. The view's `localtime`/`strftime` is a formatter function. The event menus' last-seen subtitles (`set_subtitle`) are not modelled, so a row is its title and its action only.
- The main menu's subtitle pointer in `items[j++] = { ... subtitles + j * SUBTITLE_LENGTH }` reads and increments `j` unsequenced. Subtitles are not modelled, so neither is that reading.
- The Pebble UI (`SimpleMenuLayer`, `layer_mark_dirty`, window creation, unload and `push_*`). `update_main_menu`'s "window and menu layer exist" is the flag `loaded`.
- The copy of the caller's leading rows in `event_menu_build` and `event_menu_destroy`. Rows that a reallocation adds beyond the old buffer are modelled as empty rows.
- AppMessage transport. Not modelled: the logging loop over the received tuples, `app_message_outbox_begin`/`send`, and the time field of `send_recorded_event`. Only its title field is modelled, in `LifeLog.OutboundTitle`. The phone-side script is not part of this model.
- `send_recorded_event` is defined in `life-log.c` but nothing in the modelled files calls it. `record_event` and both `do_record_event` handlers only write the log page. Its prototype in `global.h` also takes two arguments, not three. The model therefore composes the outbound line but does not connect it to a selection.
- `time_t` is an unbounded integer here. Its 32-bit width matters only through `gmtime`, which is a parameter.
- EventMenus.EventMenu.DoRecordEvent, EventMenus.EventMenu.Select, EventMenus.EventMenu.SelectLong, EventMenus.EventMenu.SelectShort, EventMenus.EventMenu.SelectEnd, MainMenus.MainMenu.DoRecordEvent: require that the selected entry's index is below 64, the size of the last-seen table (64 four-byte times fill the 256 bytes of one persisted key). The source indexes it by catalog index without a check, so on a catalog of more than 64 entries a selection of entry 64 to 81 writes past the table; the model does not describe that write.
- EventLog.RecordHeadsView, EventLog.RecordRoundRobin: require a record strictly later than every stored one. With two records in the same second the scan finds no wrap point between them, and the view need not follow cursor order; NewestFirst, which allows equal times, still shows that times never increase down the view. The round-robin shape also does not cover a page read back after a restart, where the cursor starts again at slot 0 (the third "## Findings" row).
- EventMenus.EventMenu.Rebuild, EventMenus.EventMenu.DoRecordEvent: require that the caller's leading rows plus the body stay below 256. That is the range of the 8-bit `other_j`. The main menu's single leading row meets this on every catalog.

## Findings

| source | as written | input that shows it | evidently intended | confidence | as-written member | corrected member |
|---|---|---|---|---|---|---|
| src/strlist.c:29-39 | appending the empty string to an unallocated table takes `malloc(1)` and records offset 0, but never stores a NUL in that byte | `strlist_append(list, "")` on a zeroed table when the allocator returns a byte other than 0: item 0 then runs past the one-byte buffer | the allocated byte is set to 0, as `strlist_reset` does, so item 0 is the empty string | not executed | StrList.StringList.AppendEmptyAsWritten | StrList.StringList.Append |
| src/strlist.c:64-72 | `strlist_prepare` on an unallocated table takes `malloc(1)` at line 67 and sets `size` to 1, but never stores a NUL in that byte | `strlist_prepare(list)` on a zeroed table when the allocator returns a byte other than 0, then `strlist_append(list, "")`: offset 0 is recorded and item 0 runs past the one-byte buffer | the allocated byte is set to 0, as `strlist_reset` does | not executed | StrList.StringList.PrepareAsWritten | StrList.StringList.Prepare |
| src/event_log.c:113-128 | the view walks back from `last` to `first` modulo the page length (51), but allocates one row per populated record | after a restart the cursor is back at slot 0; a page whose slots hold times `[3, 1, 2]` followed by empty slots has 3 rows allocated, yet the walk visits 51 slots | the walk steps back modulo the number of populated records, visiting each record once, newest first | not executed | EventLog.SlotsAsWrittenOverrun | EventLog.SlotsCover |

=== FILE: base.dfy ===
/**
 * Bytes and NUL-terminated strings as the C code of the watch application
 * sees them, the byte order used by the sorted string set, and the
 * `strncmp` comparison it is built on.
 */
module Base {

  /** An `unsigned char` / `uint8_t`. */
  type byte = b: int | 0 <= b < 256

  datatype Option<T> = None | Some(value: T)

  const NUL: byte := 0
  const PLUS: byte := 43   // '+', marks a long (begin/end) event
  const COMMA: byte := 44  // ','
  const MINUS: byte := 45  // '-', marks a disabled catalog entry
  const DIGIT_ZERO: byte := 48

  /** The bytes of a C string before its terminator hold no NUL. */
  predicate NoNul(s: seq<byte>) {
    forall i | 0 <= i < |s| :: s[i] != NUL
  }

  /** A C string without its terminator. */
  type CStr = s: seq<byte> | NoNul(s)

  /** The first `n` bytes of `s`, as `snprintf`/`strncpy` into a buffer of `n + 1` bytes keep them. */
  function Truncate(s: seq<byte>, n: nat): (r: seq<byte>)
    ensures |r| <= n && r <= s
    ensures |s| <= n ==> r == s
    ensures |s| > n ==> |r| == n
    ensures NoNul(s) ==> NoNul(r)
  {
    if |s| <= n then s else s[..n]
  }

  // ---------------------------------------------------------------------
  // Strings inside one byte buffer

  /** Index of the first NUL at or after `off`, or the buffer's length when there is none. */
  function NulIndex(data: seq<byte>, off: nat): (n: nat)
    requires off <= |data|
    ensures off <= n <= |data|
    ensures forall i | off <= i < n :: data[i] != NUL
    ensures n < |data| ==> data[n] == NUL
    decreases |data| - off
  {
    if off == |data| || data[off] == NUL then off else NulIndex(data, off + 1)
  }

  /** The string that starts at `off` ends with a NUL inside the buffer. */
  predicate Terminated(data: seq<byte>, off: nat) {
    off < |data| && NulIndex(data, off) < |data|
  }

  /** The C string a `char *` equal to `data + off` designates. */
  function StrAt(data: seq<byte>, off: nat): (s: seq<byte>)
    requires off <= |data|
    ensures NoNul(s)
  {
    data[off..NulIndex(data, off)]
  }

  /** A string that is terminated inside the buffer is not affected by bytes appended after it. */
  lemma {:induction false} NulIndexExtend(data: seq<byte>, more: seq<byte>, off: nat)
    requires off <= |data| && NulIndex(data, off) < |data|
    ensures NulIndex(data + more, off) == NulIndex(data, off)
    decreases |data| - off
  {
    if data[off] != NUL {
      NulIndexExtend(data, more, off + 1);
    }
  }

  lemma StrAtExtend(data: seq<byte>, more: seq<byte>, off: nat)
    requires Terminated(data, off)
    ensures Terminated(data + more, off)
    ensures StrAt(data + more, off) == StrAt(data, off)
  {
    NulIndexExtend(data, more, off);
    assert (data + more)[off..NulIndex(data, off)] == data[off..NulIndex(data, off)];
  }

  /** Bytes `s` followed by a NUL, placed at `off`, read back as `s`. */
  lemma {:induction false} NulIndexPlaced(data: seq<byte>, off: nat, k: nat)
    requires off + k < |data|
    requires forall i | off <= i < off + k :: data[i] != NUL
    requires data[off + k] == NUL
    ensures NulIndex(data, off) == off + k
    decreases k
  {
    if k > 0 {
      NulIndexPlaced(data, off + 1, k - 1);
    }
  }

  lemma StrAtPlaced(pre: seq<byte>, s: seq<byte>, post: seq<byte>)
    requires NoNul(s)
    ensures Terminated(pre + s + [NUL] + post, |pre|)
    ensures StrAt(pre + s + [NUL] + post, |pre|) == s
  {
    var data := pre + s + [NUL] + post;
    forall i | |pre| <= i < |pre| + |s| ensures data[i] != NUL {
      assert data[i] == s[i - |pre|];
    }
    NulIndexPlaced(data, |pre|, |s|);
    assert data[|pre|..|pre| + |s|] == s;
  }

  // ---------------------------------------------------------------------
  // Byte order of C strings

  /**
   * Unsigned byte-wise comparison in which a proper prefix sorts first:
   * -1, 0 or 1 as `a` is below, equal to or above `b`.
   */
  function Compare(a: seq<byte>, b: seq<byte>): (r: int)
    ensures -1 <= r <= 1
  {
    if |a| == 0 then (if |b| == 0 then 0 else -1)
    else if |b| == 0 then 1
    else if a[0] < b[0] then -1
    else if a[0] > b[0] then 1
    else Compare(a[1..], b[1..])
  }

  predicate Less(a: seq<byte>, b: seq<byte>) {
    Compare(a, b) < 0
  }

  lemma {:induction false} CompareZero(a: seq<byte>, b: seq<byte>)
    ensures Compare(a, b) == 0 <==> a == b
  {
    if |a| > 0 && |b| > 0 && a[0] == b[0] {
      CompareZero(a[1..], b[1..]);
      if a[1..] == b[1..] {
        assert a == [a[0]] + a[1..] && b == [b[0]] + b[1..];
      }
    }
  }

  lemma {:induction false} CompareFlip(a: seq<byte>, b: seq<byte>)
    ensures Compare(a, b) == -Compare(b, a)
  {
    if |a| > 0 && |b| > 0 && a[0] == b[0] {
      CompareFlip(a[1..], b[1..]);
    }
  }

  lemma {:induction false} LessTransitive(a: seq<byte>, b: seq<byte>, c: seq<byte>)
    requires Less(a, b) && Less(b, c)
    ensures Less(a, c)
  {
    if |a| > 0 && |b| > 0 && |c| > 0 && a[0] == b[0] == c[0] {
      LessTransitive(a[1..], b[1..], c[1..]);
    }
  }

  lemma LessIrreflexive(a: seq<byte>)
    ensures !Less(a, a)
  {
    CompareZero(a, a);
  }

  // ---------------------------------------------------------------------
  // strncmp

  /** The byte at index `i` of a C string: its terminator past the end. */
  function ByteAt(s: seq<byte>, i: nat): byte {
    if i < |s| then s[i] else NUL
  }

  function Tail(s: seq<byte>): seq<byte> {
    if |s| == 0 then [] else s[1..]
  }

  /**
   * The sign of `strncmp(a, b, n)` on two NUL-terminated strings: the first
   * differing byte within `n` decides, unsigned, and a common NUL ends the
   * comparison as equal.
   */
  function StrNCmp(a: seq<byte>, b: seq<byte>, n: nat): int
    decreases n
  {
    if n == 0 then 0
    else if ByteAt(a, 0) < ByteAt(b, 0) then -1
    else if ByteAt(a, 0) > ByteAt(b, 0) then 1
    else if ByteAt(a, 0) == NUL then 0
    else StrNCmp(Tail(a), Tail(b), n - 1)
  }

  /**
   * The comparison the string set's binary search makes between a key of
   * `|key|` bytes and a stored item: `strncmp` over the key's length, and a
   * stored item that is longer than the key compares greater.
   */
  function SearchCompare(key: seq<byte>, item: seq<byte>): int {
    var res := StrNCmp(key, item, |key|);
    if res == 0 && ByteAt(item, |key|) != NUL then -1 else res
  }

  /** For NUL-free strings, the search comparison is exactly the byte order. */
  lemma {:induction false} SearchCompareIsCompare(key: seq<byte>, item: seq<byte>)
    requires NoNul(key) && NoNul(item)
    ensures SearchCompare(key, item) == Compare(key, item)
  {
    if |key| > 0 && |item| > 0 && key[0] == item[0] {
      SearchCompareIsCompare(key[1..], item[1..]);
      assert ByteAt(item, |key|) == ByteAt(item[1..], |key| - 1);
    }
  }
}

=== FILE: catalog.dfy ===
/**
 * The application's global catalog state (global.c): the event names, the
 * begin and end labels derived from them, the long-event id of every entry
 * and the two label prefixes; with the derivation of the labels and ids
 * (`preprocess_long_events`) and the update rules of an inbound message.
 */
module Catalog {
  import opened Base
  import opened Dict
  import opened StrList
  import opened Names

  /** Size of the prefix buffers, terminator included. */
  const PREFIX_LENGTH: nat := 32

  /** Number of the message's name fields that are read: the low byte of the count field, if it has an integer type. */
  function NamesCount(dict: Dictionary): (r: Option<byte>)
    ensures r.Some? <==> KEY_EVENT_NAMES in dict && (dict[KEY_EVENT_NAMES].Int? || dict[KEY_EVENT_NAMES].UInt?)
  {
    if KEY_EVENT_NAMES in dict && (dict[KEY_EVENT_NAMES].Int? || dict[KEY_EVENT_NAMES].UInt?)
    then Some(LowByte(dict[KEY_EVENT_NAMES]))
    else None
  }

  /** The names a message carries, when it carries a count. */
  function NewNames(dict: Dictionary): Option<seq<CStr>> {
    match NamesCount(dict)
    case Some(n) => Some(StringFields(dict, KEY_EVENT_NAMES + 1, Clamp(n)))
    case None => None
  }

  /** The prefix a message sets at `key`: its string truncated to 31 bytes, as `strncpy` and the forced terminator leave it. */
  function NewPrefix(dict: Dictionary, key: nat): (r: Option<seq<byte>>)
    ensures r.Some? ==> NoNul(r.value) && |r.value| < PREFIX_LENGTH
  {
    match StringAt(dict, key)
    case Some(s) => Some(Truncate(s, PREFIX_LENGTH - 1))
    case None => None
  }

  /** "Start of " and "End of ", the initial prefixes. */
  const DEFAULT_BEGIN_PREFIX: seq<byte> := [83, 116, 97, 114, 116, 32, 111, 102, 32]
  const DEFAULT_END_PREFIX: seq<byte> := [69, 110, 100, 32, 111, 102, 32]

  class Catalog {
    const names: StringList
    const begins: StringList
    const ends: StringList
    const longEventId: array<byte>
    var longEventCount: nat
    var beginPrefix: seq<byte>
    var endPrefix: seq<byte>

    /** Three separate well-formed tables, the id array of 83 slots, two terminated prefixes. */
    ghost predicate Structure()
      reads this, names, begins, ends, names.offsets, begins.offsets, ends.offsets
    {
      && names != begins && names != ends && begins != ends
      && names.offsets != begins.offsets && names.offsets != ends.offsets
      && begins.offsets != ends.offsets
      && names.Valid() && begins.Valid() && ends.Valid()
      && longEventId.Length == MAX_SIZE
      && NoNul(beginPrefix) && |beginPrefix| < PREFIX_LENGTH
      && NoNul(endPrefix) && |endPrefix| < PREFIX_LENGTH
    }

    /** The derived state matches the names and prefixes, as `preprocess_long_events` leaves it. */
    ghost predicate Consistent()
      reads this, names, begins, ends, names.offsets, begins.offsets, ends.offsets, longEventId
    {
      && Structure()
      && longEventCount == CountLong(names.Strings)
      && (forall i | 0 <= i < names.count :: longEventId[i] == LongId(names.Strings, i))
      && begins.Strings == Labels(beginPrefix, names.Strings)
      && ends.Strings == Labels(endPrefix, names.Strings)
    }

    /** The zero-initialised globals with the default prefixes "Start of " and "End of ". */
    constructor ()
      ensures Consistent() && fresh(names) && fresh(begins) && fresh(ends)
      ensures fresh(names.offsets) && fresh(begins.offsets) && fresh(ends.offsets) && fresh(longEventId)
      ensures names.Strings == [] && longEventCount == 0
      ensures beginPrefix == DEFAULT_BEGIN_PREFIX && endPrefix == DEFAULT_END_PREFIX
    {
      names := new StringList();
      begins := new StringList();
      ends := new StringList();
      longEventId := new byte[MAX_SIZE](_ => 0);
      longEventCount := 0;
      beginPrefix := DEFAULT_BEGIN_PREFIX;
      endPrefix := DEFAULT_END_PREFIX;
    }

    /** The state `preprocess_long_events` has reached after the first `i` entries; `ids0` is the id array it started from. */
    ghost predicate Partial(strs: seq<seq<byte>>, i: nat, ids0: seq<byte>)
      reads this, names, begins, ends, names.offsets, begins.offsets, ends.offsets, longEventId
    {
      && Structure() && names.Strings == strs && i <= |strs| == names.count && |ids0| == MAX_SIZE
      && longEventCount == CountLong(strs[..i])
      && (forall k | 0 <= k < i :: longEventId[k] == LongId(strs, k))
      && (forall k | i <= k < MAX_SIZE :: longEventId[k] == ids0[k])
      && begins.Strings == Labels(beginPrefix, strs[..i])
      && ends.Strings == Labels(endPrefix, strs[..i])
      && 1 <= begins.size <= 1 + LABEL_BUFFER * begins.count
      && 1 <= ends.size <= 1 + LABEL_BUFFER * ends.count
    }

    /**
     * `preprocess_long_events`: give every long entry the next id and its
     * begin and end labels, and every other entry id 0. Id slots past the
     * catalog are left alone.
     */
    method Preprocess()
      requires Structure()
      modifies this, begins, begins.offsets, ends, ends.offsets, longEventId
      ensures Consistent()
      ensures beginPrefix == old(beginPrefix) && endPrefix == old(endPrefix)
      ensures forall i | names.count <= i < MAX_SIZE :: longEventId[i] == old(longEventId[i])
    {
      longEventCount := 0;
      var _ := begins.Reset();
      var _ := ends.Reset();
      ghost var strs := names.Strings;
      ghost var ids0 := longEventId[..];
      var i := 0;
      while i < names.count
        invariant Partial(strs, i, ids0)
        invariant beginPrefix == old(beginPrefix) && endPrefix == old(endPrefix)
      {
        PreprocessEntry(i, strs, ids0);
        i := i + 1;
      }
      assert strs[..names.count] == strs;
    }

    /** One round of the loop of `preprocess_long_events`, on entry `i`. */
    method PreprocessEntry(i: nat, ghost strs: seq<seq<byte>>, ghost ids0: seq<byte>)
      requires Partial(strs, i, ids0) && i < |strs|
      modifies this, begins, begins.offsets, ends, ends.offsets, longEventId
      ensures Partial(strs, i + 1, ids0)
      ensures beginPrefix == old(beginPrefix) && endPrefix == old(endPrefix)
    {
      var name := names.UnsafeItem(i);
      CountStep(strs, i);
      assert strs[..i + 1] == strs[..i] + [name];
      if ByteAt(name, 0) != PLUS {
        longEventId[i] := 0;
        assert Labels(beginPrefix, strs[..i + 1]) == begins.Strings + [];
        assert Labels(endPrefix, strs[..i + 1]) == ends.Strings + [];
      } else {
        PreprocessLong(i, name, strs, ids0);
      }
    }

    /** The round on a long entry: the next id, and its two labels appended. */
    method PreprocessLong(i: nat, name: seq<byte>, ghost strs: seq<seq<byte>>, ghost ids0: seq<byte>)
      requires Partial(strs, i, ids0) && i < |strs| && name == strs[i] && IsLong(name) && NoNul(name)
      requires CountLong(strs[..i + 1]) == CountLong(strs[..i]) + 1
      modifies this, begins, begins.offsets, ends, ends.offsets, longEventId
      ensures Partial(strs, i + 1, ids0)
      ensures beginPrefix == old(beginPrefix) && endPrefix == old(endPrefix)
    {
      longEventCount := longEventCount + 1;
      longEventId[i] := longEventCount;
      AppendLabel(begins, beginPrefix, name, strs, i);
      AppendLabel(ends, endPrefix, name, strs, i);
    }

    /** The `snprintf` into the 128-byte buffer and the append of its contents to a label table. */
    static method AppendLabel(list: StringList, prefix: seq<byte>, name: seq<byte>, ghost strs: seq<seq<byte>>, i: nat)
      requires list.Valid() && i < |strs| && name == strs[i] && IsLong(name)
      requires NoNul(prefix) && NoNul(name)
      requires list.Strings == Labels(prefix, strs[..i]) && i < MAX_COUNT
      requires 1 <= list.size <= 1 + LABEL_BUFFER * list.count
      modifies list, list.offsets
      ensures list.Valid() && list.Strings == Labels(prefix, strs[..i + 1])
      ensures 1 <= list.size <= 1 + LABEL_BUFFER * list.count
    {
      var buffer := Label(prefix, name);
      assert strs[..i + 1][..i] == strs[..i];
      CountMonotone(strs, i, |strs|);
      var _ := list.Append(buffer);
    }

    /**
     * The update rules of `inbox_received_handler`: a count field of integer
     * type replaces the names, a string field at 901 or 902 replaces a
     * prefix, and the labels and ids are derived again exactly when one of
     * these happened.
     */
    method Update(dict: Dictionary) returns (updated: bool)
      requires Consistent()
      requires NewNames(dict).Some? ==> Fits(NewNames(dict).value)
      modifies this, names, names.offsets, begins, begins.offsets, ends, ends.offsets, longEventId
      ensures Consistent()
      ensures updated <==> NewNames(dict).Some? || NewPrefix(dict, KEY_BEGIN_PREFIX).Some? || NewPrefix(dict, KEY_END_PREFIX).Some?
      ensures names.Strings == match NewNames(dict) case Some(n) => n case None => old(names.Strings)
      ensures beginPrefix == match NewPrefix(dict, KEY_BEGIN_PREFIX) case Some(p) => p case None => old(beginPrefix)
      ensures endPrefix == match NewPrefix(dict, KEY_END_PREFIX) case Some(p) => p case None => old(endPrefix)
      ensures !updated ==> begins.data == old(begins.data) && ends.data == old(ends.data) && longEventId[..] == old(longEventId[..])
      ensures forall i | names.count <= i < MAX_SIZE :: longEventId[i] == old(longEventId[i])
    {
      updated := Receive(dict);
      if updated {
        Preprocess();
      }
    }

    /** The three field updates of the inbound handler, before the labels are derived again. */
    method Receive(dict: Dictionary) returns (updated: bool)
      requires Structure()
      requires NewNames(dict).Some? ==> Fits(NewNames(dict).value)
      modifies this`beginPrefix, this`endPrefix, names, names.offsets
      ensures Structure()
      ensures updated <==> NewNames(dict).Some? || NewPrefix(dict, KEY_BEGIN_PREFIX).Some? || NewPrefix(dict, KEY_END_PREFIX).Some?
      ensures names.Strings == match NewNames(dict) case Some(n) => n case None => old(names.Strings)
      ensures beginPrefix == match NewPrefix(dict, KEY_BEGIN_PREFIX) case Some(p) => p case None => old(beginPrefix)
      ensures endPrefix == match NewPrefix(dict, KEY_END_PREFIX) case Some(p) => p case None => old(endPrefix)
    {
      updated := false;
      if KEY_EVENT_NAMES in dict && (dict[KEY_EVENT_NAMES].Int? || dict[KEY_EVENT_NAMES].UInt?) {
        var _ := names.SetFromDict(dict, KEY_EVENT_NAMES + 1, LowByte(dict[KEY_EVENT_NAMES]));
        updated := true;
      }
      if KEY_BEGIN_PREFIX in dict && dict[KEY_BEGIN_PREFIX].CString? {
        beginPrefix := Truncate(dict[KEY_BEGIN_PREFIX].s, PREFIX_LENGTH - 1);
        updated := true;
      }
      if KEY_END_PREFIX in dict && dict[KEY_END_PREFIX].CString? {
        endPrefix := Truncate(dict[KEY_END_PREFIX].s, PREFIX_LENGTH - 1);
        updated := true;
      }
    }
  }
}

=== FILE: dict.dfy ===
/**
 * The key/value dictionary an AppMessage delivers: each key maps to one
 * typed tuple value. Only the types the application tests for are told
 * apart; every other type is `Other`.
 */
module Dict {
  import opened Base

  datatype Value =
    | CString(s: CStr)   // TUPLE_CSTRING
    | Int(i: int)        // TUPLE_INT
    | UInt(u: nat)       // TUPLE_UINT
    | Other(raw: seq<byte>)

  type Dictionary = map<nat, Value>

  /** Keys of the inbound message (global.h). */
  const KEY_BEGIN_PREFIX: nat := 901
  const KEY_END_PREFIX: nat := 902
  const KEY_EVENT_NAMES: nat := 1000

  /**
   * `tuple->value->uint8`: the first byte of the little-endian integer, that is
   * its value modulo 256 (two's complement for a negative signed value).
   */
  function LowByte(v: Value): (b: byte)
    requires v.Int? || v.UInt?
    ensures v.UInt? && v.u < 256 ==> b == v.u
    ensures v.Int? && -256 < v.i < 0 ==> b == v.i + 256
  {
    if v.Int? then v.i % 256 else v.u % 256
  }

  /** The string tuple at `key`, if the message has one of string type. */
  function StringAt(dict: Dictionary, key: nat): Option<CStr> {
    if key in dict && dict[key].CString? then Some(dict[key].s) else None
  }

  /**
   * The strings found, in key order, at keys `first .. first + n - 1`,
   * leaving out absent keys and tuples that are not strings.
   */
  function StringFields(dict: Dictionary, first: nat, n: nat): (r: seq<CStr>)
    ensures |r| <= n
  {
    if n == 0 then []
    else
      StringFields(dict, first, n - 1)
      + match StringAt(dict, first + n - 1)
        case Some(s) => [s]
        case None => []
  }
}

=== FILE: eventlog.dfy ===
/**
 * The circular event log (event_log.c): one persisted page of (time, id)
 * records written round-robin, and the log view that lists the populated
 * records newest first.
 */
module EventLog {
  import opened Base
  import opened StrList

  /** PERSIST_DATA_MAX_LENGTH: the bytes one persisted key holds. */
  const PERSIST_DATA_MAX_LENGTH: nat := 256
  /** `sizeof(struct entry)`: a packed 32-bit time and an 8-bit id. */
  const ENTRY_BYTES: nat := 5
  /** Records in the page. */
  const PAGE_LENGTH: nat := PERSIST_DATA_MAX_LENGTH / ENTRY_BYTES
  /** Size of the buffer `strftime` writes a time stamp into, terminator included. */
  const STAMP_BUFFER: nat := 32

  /** "No event logged." */
  const NO_EVENT_LOGGED: seq<byte> := [78, 111, 32, 101, 118, 101, 110, 116, 32, 108, 111, 103, 103, 101, 100, 46]

  /** One record; time 0 marks a slot never written. */
  datatype Entry = Entry(time: int, id: byte)

  /** A row of the log view: a title, and a subtitle when the title is an event name. */
  datatype LogRow = LogRow(title: seq<byte>, subtitle: Option<seq<byte>>)

  /**
   * `localtime` followed by `strftime` into the 32-byte buffer: the time
   * stamp of a time, or None where `strftime` returns 0.
   */
  type Formatter = int -> Option<seq<byte>>

  /** What `strftime` can produce in the buffer: a string without NUL that leaves room for its terminator. */
  ghost predicate FormatOk(format: Formatter) {
    forall t :: format(t).Some? ==> NoNul(format(t).value) && |format(t).value| < STAMP_BUFFER
  }

  /** A record the view scan takes: written, and with a time stamp. */
  predicate Shown(e: Entry, format: Formatter) {
    e.time != 0 && format(e.time).Some?
  }

  /** The scan from slot `i` on: the first slot it stops at. */
  function ScanFrom(p: seq<Entry>, format: Formatter, i: nat): (n: nat)
    requires i <= |p|
    ensures i <= n <= |p|
    ensures forall k | i <= k < n :: Shown(p[k], format)
    ensures n < |p| ==> !Shown(p[n], format)
    decreases |p| - i
  {
    if i == |p| || !Shown(p[i], format) then i else ScanFrom(p, format, i + 1)
  }

  /**
   * The number of records the view shows: the leading run of slots with a
   * non-zero time that `strftime` can format. Slots after the first gap are
   * never looked at.
   */
  function Populated(p: seq<Entry>, format: Formatter): (n: nat)
    ensures n <= |p|
    ensures forall k | 0 <= k < n :: Shown(p[k], format)
    ensures n < |p| ==> !Shown(p[n], format)
  {
    ScanFrom(p, format, 0)
  }

  /** Record `k` is no older than the one before it. */
  predicate NotBefore(p: seq<Entry>, k: nat)
    requires 1 <= k < |p|
  {
    p[k - 1].time <= p[k].time
  }

  /**
   * The wrap point among the first `n` records: the first slot whose time
   * is below that of the slot before it, if any.
   */
  function Wrap(p: seq<Entry>, n: nat): (r: Option<nat>)
    requires n <= |p|
    ensures r.Some? ==> 1 <= r.value < n && p[r.value].time < p[r.value - 1].time
    ensures forall k | 1 <= k < n && (r.None? || k < r.value) :: NotBefore(p, k)
    decreases n
  {
    if n <= 1 then None
    else match Wrap(p, n - 1)
      case Some(w) => Some(w)
      case None => if p[n - 1].time < p[n - 2].time then Some(n - 1) else None
  }

  /** `first`: the slot of the oldest record, the wrap point or else slot 0. */
  function First(p: seq<Entry>, n: nat): (first: nat)
    requires n <= |p|
    ensures n > 0 ==> first < n
  {
    match Wrap(p, n)
    case Some(w) => w
    case None => 0
  }

  /** `last`: the slot of the newest record, just before the wrap point or else the last populated slot. */
  function Last(p: seq<Entry>, n: nat): (last: nat)
    requires n <= |p|
    ensures n > 0 ==> last < n
    ensures Wrap(p, n).Some? ==> last + 1 == First(p, n)
    ensures Wrap(p, n).None? && n > 0 ==> last + 1 == n && First(p, n) == 0
  {
    match Wrap(p, n)
    case Some(w) => w - 1
    case None => if n == 0 then 0 else n - 1
  }

  /** Stepping back one slot modulo `m`, as the view loop does. */
  lemma StepBack(j: nat, m: nat)
    requires j < m
    ensures (j + m - 1) % m == if j == 0 then m - 1 else j - 1
  {
    if j > 0 {
      assert j + m - 1 == m + (j - 1);
    }
  }

  /**
   * The slots the view visits with modulus `m`: from `last` stepping back
   * one slot modulo `m` (see StepBack) until `first`, both included.
   */
  function Walk(m: nat, first: nat, last: nat): (w: seq<nat>)
    requires first < m && last < m
    ensures 1 <= |w| <= m && w[0] == last && w[|w| - 1] == first
    ensures forall k | 0 <= k < |w| :: w[k] < m
    ensures forall k | 0 <= k < |w| - 1 :: w[k] != first
    ensures forall k | 0 <= k < |w| - 1 :: w[k + 1] == if w[k] == 0 then m - 1 else w[k] - 1
  {
    if first <= last then seq(last - first + 1, k requires 0 <= k <= last - first => last - k)
    else seq(last + 1, k requires 0 <= k <= last => last - k) + seq(m - first, k requires 0 <= k < m - first => m - 1 - k)
  }

  /** The view's slots as the source walks them: modulo the page length. */
  function SlotsAsWritten(p: seq<Entry>, format: Formatter): (w: seq<nat>)
    requires |p| == PAGE_LENGTH && Populated(p, format) > 0
    ensures 1 <= |w| <= PAGE_LENGTH
  {
    var n := Populated(p, format);
    Walk(PAGE_LENGTH, First(p, n), Last(p, n))
  }

  /** The view's slots walked modulo the number of populated records. */
  function Slots(p: seq<Entry>, format: Formatter): (w: seq<nat>)
    requires Populated(p, format) > 0
    ensures 1 <= |w| <= Populated(p, format)
  {
    var n := Populated(p, format);
    Walk(n, First(p, n), Last(p, n))
  }

  /** The corrected walk visits every populated slot exactly once. */
  lemma SlotsCover(p: seq<Entry>, format: Formatter)
    requires Populated(p, format) > 0
    ensures |Slots(p, format)| == Populated(p, format)
    ensures forall j | 0 <= j < Populated(p, format) :: j in Slots(p, format)
  {
    var n := Populated(p, format);
    var first, last := First(p, n), Last(p, n);
    var w := Walk(n, first, last);
    forall j | 0 <= j < n
      ensures j in w
    {
      if first <= last {
        assert w[last - j] == j;
      } else if j <= last {
        assert w[last - j] == j;
      } else {
        assert w[last + 1 + (n - 1 - j)] == j;
      }
    }
  }

  /**
   * A page that wrapped before it filled up: the source's walk runs over the
   * whole page, more rows than the populated records it allocated, and it
   * visits slot `n`, past the last time stamp.
   */
  lemma SlotsAsWrittenOverrun(p: seq<Entry>, format: Formatter)
    requires |p| == PAGE_LENGTH && Populated(p, format) < PAGE_LENGTH
    requires Wrap(p, Populated(p, format)).Some?
    ensures |SlotsAsWritten(p, format)| == PAGE_LENGTH > Populated(p, format)
    ensures Populated(p, format) in SlotsAsWritten(p, format)
  {
    var n := Populated(p, format);
    var first, last := First(p, n), Last(p, n);
    var w := Walk(PAGE_LENGTH, first, last);
    assert w[last + 1 + (PAGE_LENGTH - 1 - n)] == n;
  }

  /** The source's walk and the corrected one agree exactly when the page never wrapped or is full. */
  lemma SlotsAgree(p: seq<Entry>, format: Formatter)
    requires |p| == PAGE_LENGTH && Populated(p, format) > 0
    ensures SlotsAsWritten(p, format) == Slots(p, format) <==>
      Wrap(p, Populated(p, format)).None? || Populated(p, format) == PAGE_LENGTH
  {
    var n := Populated(p, format);
    if Wrap(p, n).Some? && n < PAGE_LENGTH {
      SlotsAsWrittenOverrun(p, format);
    }
  }

  /** The example of a restart: three records written after the page wrapped once. */
  lemma WrappedExample(format: Formatter)
    requires forall t :: format(t).Some?
    ensures var p := [Entry(3, 1), Entry(1, 1), Entry(2, 1)] + seq(PAGE_LENGTH - 3, _ => Entry(0, 0));
      && Populated(p, format) == 3 && Wrap(p, 3) == Some(1)
      && |SlotsAsWritten(p, format)| == PAGE_LENGTH
      && Slots(p, format) == [0, 2, 1]
  {
    var p := [Entry(3, 1), Entry(1, 1), Entry(2, 1)] + seq(PAGE_LENGTH - 3, _ => Entry(0, 0));
    assert Shown(p[0], format) && Shown(p[1], format) && Shown(p[2], format) && !Shown(p[3], format);
    assert Populated(p, format) == 3;
    SlotsAsWrittenOverrun(p, format);
  }

  /** The scan stops at the first slot it cannot show. */
  lemma PopulatedAt(p: seq<Entry>, format: Formatter, n: nat)
    requires n <= |p| && forall k | 0 <= k < n :: Shown(p[k], format)
    requires n < |p| ==> !Shown(p[n], format)
    ensures Populated(p, format) == n
  {
  }

  /** The wrap detection of the scan, one record further. */
  lemma WrapStep(p: seq<Entry>, i: nat)
    requires i < |p|
    ensures i == 0 ==> First(p, 1) == 0 && Last(p, 1) == 0
    ensures i > 0 && First(p, i) == 0 && p[i].time < p[i - 1].time ==> First(p, i + 1) == i && Last(p, i + 1) == i - 1
    ensures i > 0 && First(p, i) == 0 && p[i].time >= p[i - 1].time ==> First(p, i + 1) == 0 && Last(p, i + 1) == i
    ensures i > 0 && First(p, i) != 0 ==> First(p, i + 1) == First(p, i) && Last(p, i + 1) == Last(p, i)
  {
  }

  /** The slots of the first `n` records decide the wrap point. */
  lemma {:induction false} WrapSame(p: seq<Entry>, q: seq<Entry>, n: nat)
    requires n <= |p| && n <= |q| && forall k | 0 <= k < n :: p[k] == q[k]
    ensures Wrap(p, n) == Wrap(q, n)
    decreases n
  {
    if n > 1 {
      WrapSame(p, q, n - 1);
    }
  }

  /**
   * Read newest first: the walk never goes from a record to a later one,
   * provided the records after the wrap point ascend and end no later than
   * slot 0, as round-robin writing with a clock that does not go back
   * leaves them.
   */
  lemma NewestFirst(p: seq<Entry>, format: Formatter)
    requires Populated(p, format) > 0
    requires Wrap(p, Populated(p, format)).Some? ==>
      var n := Populated(p, format);
      && (forall k | First(p, n) < k < n :: NotBefore(p, k))
      && p[n - 1].time <= p[0].time
    ensures forall k | 0 <= k < |Slots(p, format)| - 1 :: p[Slots(p, format)[k]].time >= p[Slots(p, format)[k + 1]].time
  {
    var n := Populated(p, format);
    var first, last := First(p, n), Last(p, n);
    var w := Walk(n, first, last);
    forall k | 0 <= k < |w| - 1
      ensures p[w[k]].time >= p[w[k + 1]].time
    {
      if first <= last {
        assert w[k] == last - k && w[k + 1] == last - k - 1;
        assert NotBefore(p, last - k);
      } else if k < last {
        assert w[k] == last - k && w[k + 1] == last - k - 1;
        assert NotBefore(p, last - k);
      } else if k == last {
        assert w[k] == 0 && w[k + 1] == n - 1;
      } else {
        assert w[k] == n - 1 - (k - last - 1) && w[k + 1] == n - 1 - (k - last);
        assert NotBefore(p, w[k]);
      }
    }
  }

  /**
   * Recording into the slot right after an unwrapped run of records, with
   * a time no earlier than the last one, makes the new record the first
   * row of the view.
   */
  lemma RecordedNewest(p: seq<Entry>, format: Formatter, e: Entry)
    requires Populated(p, format) < |p| && Wrap(p, Populated(p, format)).None?
    requires Shown(e, format)
    requires Populated(p, format) > 0 ==> p[Populated(p, format) - 1].time <= e.time
    requires Populated(p, format) + 1 < |p| ==> !Shown(p[Populated(p, format) + 1], format)
    ensures Populated(p[Populated(p, format) := e], format) == Populated(p, format) + 1
    ensures Slots(p[Populated(p, format) := e], format)[0] == Populated(p, format)
  {
    var n := Populated(p, format);
    var q := p[n := e];
    var m := Populated(q, format);
    assert forall k | 0 <= k < n :: q[k] == p[k];
    assert forall k | 0 <= k <= n :: Shown(q[k], format);
    assert n + 1 < |q| ==> q[n + 1] == p[n + 1];
    WrapSame(p, q, n);
    assert Wrap(q, n + 1).None?;
  }

  /** Without a descent among the first `n` records there is no wrap point. */
  lemma {:induction false} WrapNone(p: seq<Entry>, n: nat)
    requires n <= |p| && forall k | 1 <= k < n :: NotBefore(p, k)
    ensures Wrap(p, n).None?
    decreases n
  {
    if n > 1 {
      WrapNone(p, n - 1);
      assert NotBefore(p, n - 1);
    }
  }

  /** The first descent among the first `n` records is the wrap point. */
  lemma {:induction false} WrapAt(p: seq<Entry>, n: nat, w: nat)
    requires 1 <= w < n <= |p| && p[w].time < p[w - 1].time
    requires forall k | 1 <= k < w :: NotBefore(p, k)
    ensures Wrap(p, n) == Some(w)
    decreases n
  {
    if n - 1 > w {
      WrapAt(p, n - 1, w);
    } else {
      WrapNone(p, w);
    }
  }

  // ---------------------------------------------------------------------
  // The page as round-robin recording leaves it

  /**
   * The page before it first fills up: the slots below the cursor hold
   * shown records whose times increase with the slot, and the slots from
   * the cursor on were never written.
   */
  ghost predicate Filling(p: seq<Entry>, next: nat, format: Formatter) {
    && |p| == PAGE_LENGTH && next < PAGE_LENGTH
    && (forall k | 0 <= k < next :: Shown(p[k], format))
    && (forall k | next <= k < PAGE_LENGTH :: p[k].time == 0)
    && (forall i, j | 0 <= i < j < next :: p[i].time < p[j].time)
  }

  /**
   * The page once it has filled up: every slot holds a shown record, the
   * oldest at the cursor. Times increase from the cursor to the end of the
   * page, and on from slot 0 to the slot just before the cursor.
   */
  ghost predicate Full(p: seq<Entry>, next: nat, format: Formatter) {
    && |p| == PAGE_LENGTH && next < PAGE_LENGTH
    && (forall k | 0 <= k < PAGE_LENGTH :: Shown(p[k], format))
    && (forall i, j | next <= i < j < PAGE_LENGTH :: p[i].time < p[j].time)
    && (forall i, j | 0 <= i < j < next :: p[i].time < p[j].time)
    && (forall i, j | next <= i < PAGE_LENGTH && 0 <= j < next :: p[i].time < p[j].time)
  }

  /** The shape `record_event` keeps when the clock moves on between records. */
  ghost predicate RoundRobin(p: seq<Entry>, next: nat, format: Formatter) {
    Filling(p, next, format) || Full(p, next, format)
  }

  /**
   * The slot `k` records back from the cursor, stepping back round the
   * page: 0 is the newest, the slot just before the cursor.
   */
  function Back(next: nat, k: nat): (slot: nat)
    requires next < PAGE_LENGTH && k < PAGE_LENGTH
    ensures slot < PAGE_LENGTH
  {
    if k < next then next - 1 - k else PAGE_LENGTH + next - 1 - k
  }

  /** The cursor after a record: the next slot, or slot 0 after the last one. */
  lemma NextSlot(next: nat)
    requires next < PAGE_LENGTH
    ensures (next + 1) % PAGE_LENGTH == if next + 1 == PAGE_LENGTH then 0 else next + 1
  {
  }

  /** The zeroed page with the cursor at slot 0 is in round-robin shape. */
  lemma EmptyRoundRobin(format: Formatter)
    ensures Filling(seq(PAGE_LENGTH, _ => Entry(0, 0)), 0, format)
  {
  }

  /**
   * Recording at the cursor a record later than every stored one keeps the
   * round-robin shape; the page is full after it exactly when it was full
   * before or the cursor was at the last slot.
   */
  lemma RecordRoundRobin(p: seq<Entry>, next: nat, format: Formatter, e: Entry)
    requires RoundRobin(p, next, format) && Shown(e, format)
    requires forall k | 0 <= k < |p| :: p[k].time < e.time
    ensures RoundRobin(p[next := e], (next + 1) % PAGE_LENGTH, format)
    ensures Full(p[next := e], (next + 1) % PAGE_LENGTH, format) <==> Full(p, next, format) || next + 1 == PAGE_LENGTH
  {
    NextSlot(next);
    if Full(p, next, format) {
      RecordOnFull(p, next, format, e);
    } else if next + 1 < PAGE_LENGTH {
      RecordWhileFilling(p, next, format, e);
    } else {
      RecordFillsUp(p, format, e);
    }
  }

  /** On a full page the new record overwrites the oldest, and the page stays full. */
  lemma RecordOnFull(p: seq<Entry>, next: nat, format: Formatter, e: Entry)
    requires Full(p, next, format) && Shown(e, format)
    requires forall k | 0 <= k < |p| :: p[k].time < e.time
    ensures Full(p[next := e], (next + 1) % PAGE_LENGTH, format)
  {
    var q := p[next := e];
    NextSlot(next);
    assert forall k | 0 <= k < PAGE_LENGTH :: Shown(q[k], format);
    if next + 1 == PAGE_LENGTH {
      forall i, j | 0 <= i < j < PAGE_LENGTH
        ensures q[i].time < q[j].time
      {
        if j < next {
          assert q[i] == p[i] && q[j] == p[j];
        }
      }
    } else {
      forall i, j | next + 1 <= i < j < PAGE_LENGTH
        ensures q[i].time < q[j].time
      {
        assert q[i] == p[i] && q[j] == p[j];
      }
      forall i, j | 0 <= i < j < next + 1
        ensures q[i].time < q[j].time
      {
        if j < next {
          assert q[i] == p[i] && q[j] == p[j];
        }
      }
      forall i, j | next + 1 <= i < PAGE_LENGTH && 0 <= j < next + 1
        ensures q[i].time < q[j].time
      {
        if j < next {
          assert q[i] == p[i] && q[j] == p[j];
        }
      }
    }
  }

  /** Before the last slot of a page filling up, the new record extends the written run. */
  lemma RecordWhileFilling(p: seq<Entry>, next: nat, format: Formatter, e: Entry)
    requires Filling(p, next, format) && next + 1 < PAGE_LENGTH && Shown(e, format)
    requires forall k | 0 <= k < |p| :: p[k].time < e.time
    ensures Filling(p[next := e], next + 1, format) && !Full(p[next := e], next + 1, format)
  {
    assert !Shown(p[next := e][PAGE_LENGTH - 1], format);
  }

  /** A record in the last slot of a page filling up fills it, and the cursor wraps to slot 0. */
  lemma RecordFillsUp(p: seq<Entry>, format: Formatter, e: Entry)
    requires Filling(p, PAGE_LENGTH - 1, format) && Shown(e, format)
    requires forall k | 0 <= k < |p| :: p[k].time < e.time
    ensures Full(p[PAGE_LENGTH - 1 := e], 0, format)
  {
  }

  /** A page filling up lists its records from the one before the cursor back to slot 0. */
  lemma FillingView(p: seq<Entry>, next: nat, format: Formatter)
    requires Filling(p, next, format) && next > 0
    ensures Populated(p, format) == next && |Slots(p, format)| == next
    ensures forall k | 0 <= k < next :: Slots(p, format)[k] == Back(next, k)
  {
    PopulatedAt(p, format, next);
    forall k | 1 <= k < next
      ensures NotBefore(p, k)
    {
      assert p[k - 1].time < p[k].time;
    }
    WrapNone(p, next);
  }

  /** A full page lists all its records from the one before the cursor back round the page to the cursor. */
  lemma FullView(p: seq<Entry>, next: nat, format: Formatter)
    requires Full(p, next, format)
    ensures Populated(p, format) == PAGE_LENGTH && |Slots(p, format)| == PAGE_LENGTH
    ensures forall k | 0 <= k < PAGE_LENGTH :: Slots(p, format)[k] == Back(next, k)
  {
    PopulatedAt(p, format, PAGE_LENGTH);
    if next == 0 {
      forall k | 1 <= k < PAGE_LENGTH
        ensures NotBefore(p, k)
      {
        assert p[k - 1].time < p[k].time;
      }
      WrapNone(p, PAGE_LENGTH);
    } else {
      forall k | 1 <= k < next
        ensures NotBefore(p, k)
      {
        assert p[k - 1].time < p[k].time;
      }
      assert p[next].time < p[next - 1].time;
      WrapAt(p, PAGE_LENGTH, next);
      var w := Slots(p, format);
      forall k | 0 <= k < PAGE_LENGTH
        ensures w[k] == Back(next, k)
      {
      }
    }
  }

  /** On a page in round-robin shape every row of the view is strictly older than the one above it. */
  lemma RoundRobinNewestFirst(p: seq<Entry>, next: nat, format: Formatter)
    requires RoundRobin(p, next, format) && Populated(p, format) > 0
    ensures forall k | 0 <= k < |Slots(p, format)| - 1 :: p[Slots(p, format)[k]].time > p[Slots(p, format)[k + 1]].time
  {
    if Full(p, next, format) {
      FullView(p, next, format);
    } else {
      assert next > 0 by {
        assert !Shown(p[0], format) ==> next == 0;
      }
      FillingView(p, next, format);
    }
    var w := Slots(p, format);
    forall k | 0 <= k < |w| - 1
      ensures p[w[k]].time > p[w[k + 1]].time
    {
      assert w[k] == Back(next, k) && w[k + 1] == Back(next, k + 1);
    }
  }

  /**
   * Recording on a page in round-robin shape, with a clock that has moved on
   * since every stored record: the view lists the records newest first in
   * cursor order, the new record first. On a full page the new record
   * replaces the oldest and the view keeps all 51 records.
   */
  lemma RecordHeadsView(p: seq<Entry>, next: nat, format: Formatter, e: Entry)
    requires RoundRobin(p, next, format) && Shown(e, format)
    requires forall k | 0 <= k < |p| :: p[k].time < e.time
    ensures var q, next' := p[next := e], (next + 1) % PAGE_LENGTH;
      && RoundRobin(q, next', format)
      && Populated(q, format) == (if Full(p, next, format) then PAGE_LENGTH else next + 1)
      && |Slots(q, format)| == Populated(q, format)
      && Slots(q, format)[0] == next
      && forall k | 0 <= k < Populated(q, format) :: Slots(q, format)[k] == Back(next', k)
  {
    var q, next' := p[next := e], (next + 1) % PAGE_LENGTH;
    NextSlot(next);
    RecordRoundRobin(p, next, format, e);
    if Full(q, next', format) {
      FullView(q, next', format);
      assert Back(next', 0) == next;
    } else {
      FillingView(q, next', format);
      assert Back(next', 0) == next;
    }
  }

  /** A record is titled by its event name when its id is one; any other id shows the time stamp as the title. */
  function RowOf(e: Entry, names: seq<seq<byte>>, stamp: seq<byte>): LogRow {
    if 1 <= e.id as int <= |names| then LogRow(names[e.id - 1], Some(stamp)) else LogRow(stamp, None)
  }

  /** An end id (128 and up) is never a catalog index plus one, so its record is titled by its time stamp. */
  lemma EndIdUntitled(e: Entry, names: seq<seq<byte>>, stamp: seq<byte>)
    requires |names| <= MAX_COUNT && e.id >= 128
    ensures RowOf(e, names, stamp) == LogRow(stamp, None)
  {
  }

  /** The time stamps of the first `n` records, as the scan appends them. */
  function Stamps(p: seq<Entry>, format: Formatter, n: nat): (r: seq<seq<byte>>)
    requires n <= |p| && forall k | 0 <= k < n :: Shown(p[k], format)
    ensures |r| == n
  {
    seq(n, k requires 0 <= k < n && Shown(p[k], format) => format(p[k].time).value)
  }

  /** One more record adds its time stamp at the end. */
  lemma StampsSnoc(p: seq<Entry>, format: Formatter, n: nat)
    requires n < |p| && forall k | 0 <= k <= n :: Shown(p[k], format)
    ensures Stamps(p, format, n + 1) == Stamps(p, format, n) + [format(p[n].time).value]
  {
    var a, b := Stamps(p, format, n + 1), Stamps(p, format, n) + [format(p[n].time).value];
    assert forall k | 0 <= k <= n :: a[k] == b[k];
  }

  /** The row of populated slot `j`. */
  function SlotRow(p: seq<Entry>, names: seq<seq<byte>>, format: Formatter, j: nat): LogRow
    requires j < Populated(p, format)
  {
    RowOf(p[j], names, format(p[j].time).value)
  }

  /**
   * The rows of the log view: one per populated record in walk order, or
   * the single row "No event logged." when there is none.
   */
  function View(p: seq<Entry>, names: seq<seq<byte>>, format: Formatter): (r: seq<LogRow>)
    ensures Populated(p, format) == 0 ==> r == [LogRow(NO_EVENT_LOGGED, None)]
    ensures Populated(p, format) > 0 ==> |r| == Populated(p, format)
  {
    if Populated(p, format) == 0 then [LogRow(NO_EVENT_LOGGED, None)]
    else
      SlotsCover(p, format);
      var w := Slots(p, format);
      seq(|w|, k requires 0 <= k < |w| => SlotRow(p, names, format, w[k]))
  }

  /** Rows that follow the walk slot by slot are the view. */
  lemma ViewOfRows(p: seq<Entry>, names: seq<seq<byte>>, format: Formatter, rows: seq<LogRow>)
    requires Populated(p, format) > 0 && |rows| == |Slots(p, format)|
    requires forall r | 0 <= r < |rows| :: rows[r] == SlotRow(p, names, format, Slots(p, format)[r])
    ensures rows == View(p, names, format)
  {
    SlotsCover(p, format);
  }

  /**
   * The page `page` and cursor `next` are what recording `code` at time `now`
   * leaves of `page0` and `next0`: the entry written at the old cursor and
   * the cursor moved on round the page, or nothing changed when no id is
   * recorded.
   */
  ghost predicate Logged(page0: seq<Entry>, next0: nat, page: seq<Entry>, next: nat, code: Option<nat>, now: int) {
    match code
    case Some(c) =>
      && c < 256 && next0 < |page0|
      && page == page0[next0 := Entry(now, c)]
      && next == (next0 + 1) % PAGE_LENGTH
    case None => page == page0 && next == next0
  }

  class EventLog {
    /** The page of records, also the persisted value. */
    const page: array<Entry>
    /** The slot the next record goes to. */
    var nextIndex: nat
    /** The view's time stamps, one per populated slot. */
    const subtitles: StringList
    /** The rows of the view; empty while no view was built. */
    var items: array<LogRow>

    ghost predicate Valid()
      reads this, subtitles, subtitles.offsets
    {
      page.Length == PAGE_LENGTH && nextIndex < PAGE_LENGTH && subtitles.Valid()
    }

    /**
     * `event_log_init`: the page is read from storage over the zeroed
     * global; a short or failed read leaves the rest zero. The write cursor
     * is not stored and starts at slot 0.
     */
    constructor Init(stored: seq<Entry>)
      requires |stored| <= PAGE_LENGTH
      ensures Valid() && fresh(page) && fresh(subtitles) && fresh(subtitles.offsets)
      ensures page[..] == stored + seq(PAGE_LENGTH - |stored|, _ => Entry(0, 0))
      ensures nextIndex == 0 && items.Length == 0
    {
      page := new Entry[PAGE_LENGTH]((k: nat) => if k < |stored| then stored[k] else Entry(0, 0));
      nextIndex := 0;
      subtitles := new StringList();
      items := new LogRow[0];
      new;
      assert page[..] == stored + seq(PAGE_LENGTH - |stored|, _ => Entry(0, 0));
    }

    /** `record_event`: id 0 is ignored; any other id is written with `now` at the cursor, which moves on round the page. */
    method Record(id: byte, now: int)
      requires Valid()
      modifies this`nextIndex, page
      ensures Valid()
      ensures id == 0 ==> page[..] == old(page[..]) && nextIndex == old(nextIndex)
      ensures id != 0 ==> page[..] == old(page[..])[old(nextIndex) := Entry(now, id)]
      ensures id != 0 ==> nextIndex == (old(nextIndex) + 1) % PAGE_LENGTH
    {
      if id == 0 {
        return;
      }
      page[nextIndex] := Entry(now, id);
      nextIndex := (nextIndex + 1) % PAGE_LENGTH;
    }

    /**
     * The scan of `rebuild_menu`: reset the time stamps, append one per
     * record up to the first unwritten or unformattable slot, and find the
     * wrap point on the way.
     */
    method Scan(format: Formatter) returns (first: nat, last: nat)
      requires Valid() && FormatOk(format)
      modifies subtitles, subtitles.offsets
      ensures Valid()
      ensures subtitles.count == Populated(page[..], format)
      ensures subtitles.Strings == Stamps(page[..], format, subtitles.count)
      ensures first == First(page[..], subtitles.count) && last == Last(page[..], subtitles.count)
    {
      ghost var p := page[..];
      var _ := subtitles.Reset();
      first, last := 0, 0;
      var i := 0;
      while i < PAGE_LENGTH
        invariant i <= PAGE_LENGTH && forall k | 0 <= k < i :: Shown(p[k], format)
        invariant subtitles.Valid() && subtitles.count == i
        invariant subtitles.Strings == Stamps(p, format, i)
        invariant 1 <= subtitles.size <= 1 + STAMP_BUFFER * i
        invariant first == First(p, i) && last == Last(p, i)
      {
        if page[i].time == 0 {
          PopulatedAt(p, format, i);
          break;
        }
        var stamp := format(page[i].time);
        if stamp.None? {
          PopulatedAt(p, format, i);
          break;
        }
        AppendStamp(subtitles, p, format, i, stamp.value);
        first, last := DetectWrap(i, first, last, p);
        i := i + 1;
      }
      if i == PAGE_LENGTH {
        PopulatedAt(p, format, i);
      }
    }

    /**
     * The wrap detection of the scan at slot `i`: until a wrap point is
     * found, a slot below its predecessor becomes `first` with `last` just
     * before it, and any other slot becomes `last`.
     */
    method DetectWrap(i: nat, first: nat, last: nat, ghost p: seq<Entry>) returns (first': nat, last': nat)
      requires Valid() && i < PAGE_LENGTH && p == page[..]
      requires first == First(p, i) && last == Last(p, i)
      ensures first' == First(p, i + 1) && last' == Last(p, i + 1)
    {
      WrapStep(p, i);
      first', last' := first, last;
      if i > 0 && first == 0 {
        if page[i].time < page[i - 1].time {
          last' := i - 1;
          first' := i;
        } else {
          last' := i;
        }
      }
    }

    /** The `strftime` output of record `i` appended to the time stamps. */
    static method AppendStamp(list: StringList, ghost p: seq<Entry>, format: Formatter, i: nat, stamp: seq<byte>)
      requires FormatOk(format) && i < |p| && i < PAGE_LENGTH && forall k | 0 <= k <= i :: Shown(p[k], format)
      requires list.Valid() && list.count == i && list.Strings == Stamps(p, format, i)
      requires 1 <= list.size <= 1 + STAMP_BUFFER * i
      requires format(p[i].time) == Some(stamp)
      modifies list, list.offsets
      ensures list.Valid() && list.count == i + 1 && list.Strings == Stamps(p, format, i + 1)
      ensures 1 <= list.size <= 1 + STAMP_BUFFER * (i + 1)
    {
      var _ := list.Append(stamp);
      StampsSnoc(p, format, i);
    }

    /** The row of populated slot `j`: the event name and time stamp, or the time stamp alone. */
    method RowAt(names: StringList, format: Formatter, j: nat) returns (row: LogRow)
      requires Valid() && names.Valid() && j < subtitles.count
      requires subtitles.count == Populated(page[..], format)
      requires subtitles.Strings == Stamps(page[..], format, subtitles.count)
      ensures row == SlotRow(page[..], names.Strings, format, j)
    {
      var stamp := subtitles.UnsafeItem(j);
      var e := page[j];
      assert e == page[..][j];
      if e.id != 0 && e.id as nat <= names.count {
        row := LogRow(names.UnsafeItem(e.id - 1), Some(stamp));
      } else {
        row := LogRow(stamp, None);
      }
    }

    /**
     * `rebuild_menu`: the scan, then the rows. The walk steps back modulo
     * the number of records, not modulo the page length as the source does
     * (see SlotsAsWrittenOverrun).
     */
    method Rebuild(names: StringList, format: Formatter)
      requires Valid() && names.Valid() && FormatOk(format)
      requires names != subtitles && names.offsets != subtitles.offsets
      modifies this`items, subtitles, subtitles.offsets
      ensures Valid() && fresh(items)
      ensures items[..] == View(page[..], names.Strings, format)
      ensures subtitles.Strings == Stamps(page[..], format, Populated(page[..], format))
    {
      ghost var p := page[..];
      var first, last := Scan(format);
      assert names.Valid() && names.Strings == old(names.Strings);
      var n := subtitles.count;
      var rows;
      if n == 0 {
        rows := new LogRow[1](_ => LogRow(NO_EVENT_LOGGED, None));
        assert rows[..] == View(p, names.Strings, format);
      } else {
        rows := Rows(names, format, first, last);
      }
      items := rows;
    }

    /**
     * The walk of `rebuild_menu`: one row per populated slot, from `last`
     * stepping back one slot at a time until `first`.
     */
    method Rows(names: StringList, format: Formatter, first: nat, last: nat) returns (rows: array<LogRow>)
      requires Valid() && names.Valid() && subtitles.count > 0
      requires subtitles.count == Populated(page[..], format)
      requires subtitles.Strings == Stamps(page[..], format, subtitles.count)
      requires first == First(page[..], subtitles.count) && last == Last(page[..], subtitles.count)
      ensures fresh(rows) && rows[..] == View(page[..], names.Strings, format)
    {
      var n := subtitles.count;
      ghost var p := page[..];
      ghost var w := Walk(n, first, last);
      SlotsCover(p, format);
      rows := new LogRow[n](_ => LogRow([], None));
      var j := last;
      var k := 0;
      while true
        modifies rows
        invariant k < |w| && j == w[k]
        invariant forall r | 0 <= r < k :: rows[r] == SlotRow(p, names.Strings, format, w[r])
        decreases |w| - k
      {
        var row := RowAt(names, format, j);
        rows[k] := row;
        if j == first {
          break;
        }
        assert k + 1 < |w| by {
          assert w[|w| - 1] == first;
        }
        StepBack(j, n);
        j := (j + n - 1) % n;
        k := k + 1;
      }
      assert k == |w| - 1;
      assert Slots(p, format) == w;
      ViewOfRows(p, names.Strings, format, rows[..]);
    }
  }
}

=== FILE: eventmenu.dfy ===
/**
 * The event menu (event_menu.c): a menu whose first rows are supplied by
 * the caller, followed by one row per shown catalog entry and one more per
 * long entry; selecting a row records an event, and a long entry's primary
 * row flips that entry's running bit.
 */
module EventMenus {
  import opened Base
  import opened StrList
  import opened Names
  import opened Catalog
  import opened EventLog
  import opened Menus

  /** `struct event_menu_context`: the rows and their count, and how many leading rows the caller owns. */
  class EventMenuContext {
    var items: array<Row>
    var numItems: nat
    const extraItems: nat

    /** The section's count is the length of the row buffer (both zero before the first rebuild). */
    ghost predicate Valid()
      reads this
    {
      items.Length == numItems
    }

    /** The menu body shows catalog `cat` with running bits `running`. */
    ghost predicate Shows(cat: Catalog, running: seq<bool>)
      reads this, items, cat, cat.names, cat.begins, cat.ends, cat.names.offsets, cat.begins.offsets, cat.ends.offsets
      requires cat.names.Valid() && cat.names.count <= |running|
    {
      && Valid()
      && numItems == NumItems(cat.names.Strings, extraItems)
      && forall r | extraItems <= r < numItems ::
           items[r] == EventRow(cat.names.Strings, cat.beginPrefix, cat.endPrefix, running, extraItems, r)
    }

    /** A context with no rows yet. */
    constructor (extra: nat)
      ensures Valid() && extraItems == extra && numItems == 0
    {
      items := new Row[0];
      numItems := 0;
      extraItems := extra;
    }
  }

  /** The file-scope state of event_menu.c: the running bits and the last-seen times. */
  class EventMenu {
    const running: array<bool>
    const lastSeen: array<int>

    ghost predicate Valid()
      reads this
    {
      running.Length == RUNNING_BITS && lastSeen.Length == LAST_SEEN_SLOTS
    }

    /** The zeroed statics: nothing running, nothing seen. */
    constructor ()
      ensures Valid() && fresh(running) && fresh(lastSeen)
      ensures forall k | 0 <= k < RUNNING_BITS :: !running[k]
    {
      running := new bool[RUNNING_BITS](_ => false);
      lastSeen := new int[LAST_SEEN_SLOTS](_ => 0);
    }

    /** `toggle_long_event_running`: flip one bit and no other. */
    method Toggle(id: nat)
      requires Valid() && id < RUNNING_BITS
      modifies running
      ensures running[..] == old(running[..])[id := !old(running[id])]
    {
      running[id] := !running[id];
    }

    /**
     * `event_menu_rebuild`: count the rows, reuse the row buffer when its
     * count is unchanged and reallocate it otherwise (the leading rows
     * survive the reallocation), then write the placeholder or every
     * entry's rows. The row indices are 8-bit, so the body must end below
     * row 256.
     */
    method Rebuild(ctx: EventMenuContext, cat: Catalog)
      requires Valid() && ctx.Valid() && cat.Consistent()
      requires ctx.extraItems + MenuSize(cat.names.Strings) <= 256
      modifies ctx, ctx.items
      ensures ctx.Shows(cat, running[..])
      ensures forall r | 0 <= r < ctx.extraItems && r < old(ctx.items.Length) :: ctx.items[r] == old(ctx.items[r])
      ensures old(ctx.numItems) == ctx.numItems && old(ctx.items.Length) > 0 ==> ctx.items == old(ctx.items)
      ensures ctx.items != old(ctx.items) ==> fresh(ctx.items)
    {
      ghost var strs := cat.names.Strings;
      var size := CountRows(cat.names);
      var numItems := (if size == 0 then 1 else size) + ctx.extraItems;
      var items: array<Row>;
      if ctx.numItems == numItems && ctx.items.Length > 0 {
        items := ctx.items;
      } else {
        var prev := ctx.items[..];
        items := new Row[numItems]((k: nat) => if k < |prev| then prev[k] else EMPTY_ROW);
        ctx.items := items;
        ctx.numItems := numItems;
      }
      if size == 0 {
        items[ctx.extraItems] := Row(NO_EVENT_CONFIGURED, NoAction);
        forall r | ctx.extraItems <= r < numItems
          ensures items[r] == EventRow(strs, cat.beginPrefix, cat.endPrefix, running[..], ctx.extraItems, r)
        {
          OwnerRow(strs, ctx.extraItems, r);
        }
        return;
      }
      Fill(ctx, cat, size);
    }

    /**
     * The search loop of `do_record_event`: walk the shown entries, counting
     * their primary rows from the first body row, and stop at the entry whose
     * primary row is `index` or whose secondary row, computed from the
     * section's row count as `num_items - long_event_count + long_id - 1`,
     * is `index`. It finds exactly the row's owner.
     */
    method Locate(index: int, ctx: EventMenuContext, cat: Catalog) returns (s: Slot)
      requires cat.Consistent() && ctx.Valid()
      requires ctx.numItems == NumItems(cat.names.Strings, ctx.extraItems)
      ensures s == Outside || s == RowOwner(cat.names.Strings, ctx.extraItems, index)
      ensures s == Outside <==> !RowOwner(cat.names.Strings, ctx.extraItems, index).Primary? && !RowOwner(cat.names.Strings, ctx.extraItems, index).Secondary?
    {
      var names := cat.names;
      ghost var strs := names.Strings;
      var extra := ctx.extraItems;
      var id := 0;
      var i := extra;
      while id < names.count
        invariant id <= names.count
        invariant i == extra + CountShown(strs[..id])
        invariant !Filled(strs, extra, index, id)
      {
        var name := names.UnsafeItem(id);
        CountStep(strs, id);
        if ByteAt(name, 0) == MINUS {
          PassEntry(strs, extra, index, id);
          id := id + 1;
          continue;
        }
        var secondary := IsSecondaryRow(index, ctx, cat, id);
        if i == index {
          PrimaryRowOwner(strs, extra, id);
          return Primary(id);
        } else if secondary {
          SecondaryRowOwner(strs, extra, id);
          return Secondary(id);
        }
        PassEntry(strs, extra, index, id);
        i := i + 1;
        id := id + 1;
      }
      assert strs[..id] == strs;
      return Outside;
    }

    /** The secondary-row test of `do_record_event` on entry `id`: a nonzero long id and the row computed from it. */
    static method IsSecondaryRow(index: int, ctx: EventMenuContext, cat: Catalog, id: nat) returns (b: bool)
      requires cat.Consistent() && ctx.Valid() && id < cat.names.count
      requires ctx.numItems == NumItems(cat.names.Strings, ctx.extraItems)
      ensures b <==> IsLong(cat.names.Strings[id]) && index == SecondaryRow(cat.names.Strings, ctx.extraItems, id)
    {
      ghost var strs := cat.names.Strings;
      assert cat.longEventId[id] == LongId(strs, id);
      if IsLong(strs[id]) {
        SecondaryRowFormula(strs, ctx.extraItems, id);
        LongIdBound(strs, id);
        MenuSizeCounts(strs);
      }
      b := cat.longEventId[id] > 0 && index == ctx.numItems - cat.longEventCount + cat.longEventId[id] - 1;
    }

    /**
     * `do_record_event`: an index below the caller's rows is refused; a long
     * entry's primary row records its begin or end by its running bit,
     * flips the bit and rebuilds the menu; a short entry's row records its
     * begin id; a long entry's secondary row records the opposite end
     * without flipping and rebuilds. The entry's last-seen time becomes
     * `now` in all three cases; the placeholder and rows past the end do
     * nothing.
     */
    method DoRecordEvent(index: int, ctx: EventMenuContext, cat: Catalog, log: EventLog, now: int)
      requires Valid() && cat.Consistent() && log.Valid()
      requires ctx.Shows(cat, running[..])
      requires ctx.extraItems + MenuSize(cat.names.Strings) <= 256
      requires SeenSlot(cat.names.Strings, ctx.extraItems, index)
      modifies running, lastSeen, ctx, ctx.items, log`nextIndex, log.page
      ensures log.Valid() && ctx.Shows(cat, running[..])
      ensures running[..] == EventRunning(cat.names.Strings, old(running[..]), ctx.extraItems, index)
      ensures Logged(old(log.page[..]), old(log.nextIndex), log.page[..], log.nextIndex,
                     EventCode(cat.names.Strings, old(running[..]), ctx.extraItems, index), now)
      ensures lastSeen[..] == SlotSeen(old(lastSeen[..]), RowOwner(cat.names.Strings, ctx.extraItems, index), now)
      ensures !SlotRebuilds(cat.names.Strings, RowOwner(cat.names.Strings, ctx.extraItems, index)) ==>
        ctx.items == old(ctx.items) && ctx.numItems == old(ctx.numItems) && ctx.items[..] == old(ctx.items[..])
    {
      ghost var strs := cat.names.Strings;
      var s := Outside;
      if 0 <= index && ctx.extraItems <= index {
        s := Locate(index, ctx, cat);
      } else {
        OwnerRow(strs, ctx.extraItems, index);
      }
      ghost var owner := RowOwner(strs, ctx.extraItems, index);
      assert s == owner || (s == Outside && (owner == Outside || owner == Placeholder));
      assert SlotCode(strs, running[..], s) == EventCode(strs, running[..], ctx.extraItems, index);
      assert SlotRunning(strs, running[..], s) == EventRunning(strs, running[..], ctx.extraItems, index);
      assert SlotSeen(lastSeen[..], s, now) == SlotSeen(lastSeen[..], owner, now);
      assert SlotRebuilds(strs, s) == SlotRebuilds(strs, owner);
      Select(s, ctx, cat, log, now);
      assert cat.names.Strings == strs;
    }

    /** The action of `do_record_event` once the selected row's owner `s` is found. */
    method Select(s: Slot, ctx: EventMenuContext, cat: Catalog, log: EventLog, now: int)
      requires Valid() && cat.Consistent() && log.Valid()
      requires ctx.Shows(cat, running[..])
      requires ctx.extraItems + MenuSize(cat.names.Strings) <= 256
      requires s.Primary? ==> s.entry < cat.names.count && s.entry < LAST_SEEN_SLOTS
      requires s.Secondary? ==> s.entry < cat.names.count && s.entry < LAST_SEEN_SLOTS && IsLong(cat.names.Strings[s.entry])
      modifies running, lastSeen, ctx, ctx.items, log`nextIndex, log.page
      ensures log.Valid() && ctx.Shows(cat, running[..])
      ensures running[..] == SlotRunning(cat.names.Strings, old(running[..]), s)
      ensures Logged(old(log.page[..]), old(log.nextIndex), log.page[..], log.nextIndex,
                     SlotCode(cat.names.Strings, old(running[..]), s), now)
      ensures lastSeen[..] == SlotSeen(old(lastSeen[..]), s, now)
      ensures !SlotRebuilds(cat.names.Strings, s) ==>
        ctx.items == old(ctx.items) && ctx.numItems == old(ctx.numItems) && ctx.items[..] == old(ctx.items[..])
    {
      match s
      case Primary(id) =>
        var name := cat.names.UnsafeItem(id);
        if ByteAt(name, 0) == PLUS {
          SelectLong(id, ctx, cat, log, now);
        } else {
          SelectShort(id, log, now);
        }
      case Secondary(id) =>
        SelectEnd(id, ctx, cat, log, now);
      case _ =>
    }

    /** A long entry's primary row selected: record by the running bit, flip it, note the time, rebuild. */
    method SelectLong(id: nat, ctx: EventMenuContext, cat: Catalog, log: EventLog, now: int)
      requires Valid() && cat.Consistent() && log.Valid() && ctx.Valid()
      requires id < cat.names.count && id < LAST_SEEN_SLOTS && IsLong(cat.names.Strings[id])
      requires ctx.extraItems + MenuSize(cat.names.Strings) <= 256
      modifies running, lastSeen, ctx, ctx.items, log`nextIndex, log.page
      ensures log.Valid() && ctx.Shows(cat, running[..])
      ensures running[..] == old(running[..])[id := !old(running[id])]
      ensures log.page[..] == old(log.page[..])[old(log.nextIndex) := Entry(now, if old(running[id]) then id + END_OFFSET else id + BEGIN_OFFSET)]
      ensures log.nextIndex == (old(log.nextIndex) + 1) % PAGE_LENGTH
      ensures lastSeen[..] == old(lastSeen[..])[id := now]
    {
      var code := if running[id] then id + END_OFFSET else id + BEGIN_OFFSET;
      log.Record(code, now);
      Toggle(id);
      lastSeen[id] := now;
      Rebuild(ctx, cat);
    }

    /** A short entry's row selected: record its begin id and note the time; the menu is left as it is. */
    method SelectShort(id: nat, log: EventLog, now: int)
      requires Valid() && log.Valid() && id < LAST_SEEN_SLOTS
      modifies lastSeen, log`nextIndex, log.page
      ensures log.Valid()
      ensures log.page[..] == old(log.page[..])[old(log.nextIndex) := Entry(now, id + BEGIN_OFFSET)]
      ensures log.nextIndex == (old(log.nextIndex) + 1) % PAGE_LENGTH
      ensures lastSeen[..] == old(lastSeen[..])[id := now]
    {
      log.Record(id + BEGIN_OFFSET, now);
      lastSeen[id] := now;
    }

    /** A long entry's secondary row selected: record the end its primary row does not, note the time, rebuild; no flip. */
    method SelectEnd(id: nat, ctx: EventMenuContext, cat: Catalog, log: EventLog, now: int)
      requires Valid() && cat.Consistent() && log.Valid() && ctx.Valid()
      requires id < cat.names.count && id < LAST_SEEN_SLOTS && IsLong(cat.names.Strings[id])
      requires ctx.extraItems + MenuSize(cat.names.Strings) <= 256
      modifies lastSeen, ctx, ctx.items, log`nextIndex, log.page
      ensures log.Valid() && ctx.Shows(cat, running[..])
      ensures log.page[..] == old(log.page[..])[old(log.nextIndex) := Entry(now, if running[id] then id + BEGIN_OFFSET else id + END_OFFSET)]
      ensures log.nextIndex == (old(log.nextIndex) + 1) % PAGE_LENGTH
      ensures lastSeen[..] == old(lastSeen[..])[id := now]
    {
      var code := if running[id] then id + BEGIN_OFFSET else id + END_OFFSET;
      log.Record(code, now);
      lastSeen[id] := now;
      Rebuild(ctx, cat);
    }

    /** The fill loop of `event_menu_rebuild` over a non-empty body. */
    method Fill(ctx: EventMenuContext, cat: Catalog, size: nat)
      requires Valid() && ctx.Valid() && cat.Consistent()
      requires size == MenuSize(cat.names.Strings) > 0 && ctx.extraItems + size <= 256
      requires ctx.numItems == NumItems(cat.names.Strings, ctx.extraItems)
      modifies ctx.items
      ensures ctx.Shows(cat, running[..])
      ensures forall r | 0 <= r < ctx.extraItems :: ctx.items[r] == old(ctx.items[r])
    {
      FillRows(cat, ctx.items, ctx.extraItems, size);
      EntriesShow(ctx.items[..], cat.names.Strings, cat.beginPrefix, cat.endPrefix, running[..], ctx.extraItems);
    }

    /** The loop itself: every entry's rows written, the caller's leading rows untouched. */
    method FillRows(cat: Catalog, items: array<Row>, extra: nat, size: nat)
      requires Valid() && cat.Consistent()
      requires size == MenuSize(cat.names.Strings) > 0 && extra + size <= 256 && items.Length == extra + size
      modifies items
      ensures forall r | 0 <= r < extra :: items[r] == old(items[r])
      ensures EntriesUpTo(items[..], cat.names.Strings, cat.beginPrefix, cat.endPrefix, running[..], extra, |cat.names.Strings|)
    {
      var names := cat.names;
      ghost var strs := names.Strings;
      ghost var run := running[..];
      ghost var bp, ep := cat.beginPrefix, cat.endPrefix;
      MenuSizeCounts(strs);
      var j := extra;
      var i := 0;
      while i < names.count
        invariant i <= names.count
        invariant j == extra + CountShown(strs[..i])
        invariant forall r | 0 <= r < extra :: items[r] == old(items[r])
        invariant EntriesUpTo(items[..], strs, bp, ep, run, extra, i)
      {
        var name := names.UnsafeItem(i);
        CountStep(strs, i);
        if ByteAt(name, 0) == MINUS {
          StepHidden(items[..], strs, bp, ep, run, extra, i);
          i := i + 1;
          continue;
        }
        FillEntry(cat, items, extra, size, i, j, name, strs, bp, ep, run);
        j := j + 1;
        i := i + 1;
      }
    }

    /** One round of the fill loop on shown entry `i`, whose primary row is `j`. */
    method FillEntry(cat: Catalog, items: array<Row>, extra: nat, size: nat, i: nat, j: nat, name: seq<byte>,
                     ghost strs: seq<seq<byte>>, ghost bp: seq<byte>, ghost ep: seq<byte>, ghost run: seq<bool>)
      requires Valid() && cat.Consistent() && strs == cat.names.Strings && run == running[..]
      requires bp == cat.beginPrefix && ep == cat.endPrefix
      requires i < cat.names.count && name == strs[i] && !IsHidden(name)
      requires size == MenuSize(strs) && extra + size <= 256 && items.Length == extra + size
      requires j == PrimaryRow(strs, extra, i)
      requires EntriesUpTo(items[..], strs, bp, ep, run, extra, i)
      modifies items
      ensures forall r | 0 <= r < extra :: items[r] == old(items[r])
      ensures EntriesUpTo(items[..], strs, bp, ep, run, extra, i + 1)
    {
      ghost var rows := items[..];
      PrimaryRowRange(strs, extra, i);
      MenuSizeCounts(strs);
      if ByteAt(name, 0) == PLUS {
        var otherJ, beginLabel, endLabel := LongRows(cat, extra, size, i);
        SecondaryRowRange(strs, extra, i);
        var isRunning := running[i];
        var primary := Row(if isRunning then endLabel else beginLabel, RecordEvent);
        var secondary := Row(if isRunning then beginLabel else endLabel, RecordEvent);
        items[j] := primary;
        items[otherJ] := secondary;
        assert items[..] == rows[j := primary][otherJ := secondary];
        StepLong(rows, strs, bp, ep, run, extra, i);
      } else {
        items[j] := Row(name, RecordEvent);
        assert items[..] == rows[j := Row(name, RecordEvent)];
        StepShort(rows, strs, bp, ep, run, extra, i);
      }
    }
  }

  /** A row that is neither of entry `id`'s rows does not belong to it, so the search may pass that entry. */
  lemma PassEntry(strs: seq<seq<byte>>, extra: nat, index: int, id: nat)
    requires id < |strs| && !Filled(strs, extra, index, id)
    requires !IsHidden(strs[id]) ==> index != PrimaryRow(strs, extra, id)
    requires IsLong(strs[id]) ==> index != SecondaryRow(strs, extra, id)
    ensures !Filled(strs, extra, index, id + 1)
  {
    OwnerRow(strs, extra, index);
  }
}

=== FILE: lifelog.dfy ===
/**
 * The application's entry points in life-log.c that the model keeps: the
 * inbound handler, which applies the catalog update rules and then
 * refreshes the main menu, and the outbound line
 * `<date-time>,<id>,<title>` that `recorded_event_image` composes in a
 * caller's buffer, with the sender's fallback to the bare title. No code in
 * the modelled files calls the sender, so nothing here connects a menu
 * selection to an outbound message.
 */
module LifeLog {
  import opened Base
  import opened Dict
  import opened StrList
  import opened Names
  import opened Catalog
  import opened Menus
  import opened MainMenus

  /**
   * `inbox_received_handler` past its logging loop: the catalog update
   * rules, then `update_main_menu` whether or not anything changed.
   */
  method InboxReceived(cat: Catalog, menu: MainMenu, dict: Dictionary) returns (updated: bool)
    requires cat.Consistent()
    requires NewNames(dict).Some? ==> Fits(NewNames(dict).value)
    modifies cat, cat.names, cat.names.offsets, cat.begins, cat.begins.offsets, cat.ends, cat.ends.offsets, cat.longEventId
    modifies menu`items
    ensures cat.Consistent()
    ensures updated <==> NewNames(dict).Some? || NewPrefix(dict, KEY_BEGIN_PREFIX).Some? || NewPrefix(dict, KEY_END_PREFIX).Some?
    ensures cat.names.Strings == match NewNames(dict) case Some(n) => n case None => old(cat.names.Strings)
    ensures cat.beginPrefix == match NewPrefix(dict, KEY_BEGIN_PREFIX) case Some(p) => p case None => old(cat.beginPrefix)
    ensures cat.endPrefix == match NewPrefix(dict, KEY_END_PREFIX) case Some(p) => p case None => old(cat.endPrefix)
    ensures menu.loaded ==> menu.Shows(cat)
    ensures !menu.loaded ==> menu.items == old(menu.items)
  {
    updated := cat.Update(dict);
    menu.Update(cat);
  }

  // ---------------------------------------------------------------------
  // The outbound line

  /** The fields of `struct tm` that "%FT%TZ" prints, with the year and month as printed. */
  datatype Tm = Tm(year: nat, month: nat, day: nat, hour: nat, minute: nat, second: nat)

  /** A broken-down time as `gmtime` yields it for a 32-bit `time_t`, leap second allowed. */
  predicate ValidTm(t: Tm) {
    1000 <= t.year <= 9999 && 1 <= t.month <= 12 && 1 <= t.day <= 31
    && t.hour < 24 && t.minute < 60 && t.second <= 60
  }

  predicate IsDigit(b: byte) {
    DIGIT_ZERO <= b < DIGIT_ZERO + 10
  }

  /** `n` in `width` decimal digits, zero-padded, as `%02d` and `%04d` print it. */
  function Padded(n: nat, width: nat): (r: seq<byte>)
    requires n < Pow10(width)
    ensures |r| == width && forall k | 0 <= k < |r| :: IsDigit(r[k])
    ensures DigitsValue(r) == n
  {
    if width == 0 then []
    else Padded(n / 10, width - 1) + [(DIGIT_ZERO + n % 10) as byte]
  }

  function Pow10(k: nat): (p: nat)
    ensures p >= 1
  {
    if k == 0 then 1 else 10 * Pow10(k - 1)
  }

  const DASH: byte := 45
  const COLON: byte := 58
  const LETTER_T: byte := 84
  const LETTER_Z: byte := 90

  /** "%FT%TZ": the date-time of section 5.6 of RFC 3339 in UTC, `YYYY-MM-DDTHH:MM:SSZ`. */
  function Rfc3339(t: Tm): (r: seq<byte>)
    requires ValidTm(t)
    ensures |r| == 20 && NoNul(r) && NoComma(r)
  {
    var r := Padded(t.year, 4) + [DASH] + Padded(t.month, 2) + [DASH] + Padded(t.day, 2) + [LETTER_T]
      + Padded(t.hour, 2) + [COLON] + Padded(t.minute, 2) + [COLON] + Padded(t.second, 2) + [LETTER_Z];
    assert forall k | 0 <= k < |r| :: IsDigit(r[k]) || r[k] in {DASH, COLON, LETTER_T, LETTER_Z};
    r
  }

  predicate NoComma(s: seq<byte>) {
    forall k | 0 <= k < |s| :: s[k] != COMMA
  }

  /** `%u` of a number: its decimal digits, with no leading zero. */
  function Decimal(n: nat): (r: seq<byte>)
    ensures 1 <= |r| && forall k | 0 <= k < |r| :: IsDigit(r[k])
    ensures |r| > 1 ==> r[0] != DIGIT_ZERO
    ensures n < 10 ==> |r| == 1
    ensures n < 100 ==> |r| <= 2
    ensures n < 1000 ==> |r| <= 3
  {
    if n < 10 then [(DIGIT_ZERO + n) as byte]
    else Decimal(n / 10) + [(DIGIT_ZERO + n % 10) as byte]
  }

  /** The number a string of decimal digits denotes. */
  function DigitsValue(s: seq<byte>): nat
    requires forall k | 0 <= k < |s| :: IsDigit(s[k])
  {
    if |s| == 0 then 0
    else
      assert IsDigit(s[|s| - 1]);
      10 * DigitsValue(s[..|s| - 1]) + (s[|s| - 1] - DIGIT_ZERO) as nat
  }

  /** Reading back the digits `%u` printed gives the number. */
  lemma {:induction false} DecimalValue(n: nat)
    ensures DigitsValue(Decimal(n)) == n
  {
    if n >= 10 {
      DecimalValue(n / 10);
      var r := Decimal(n);
      assert r[..|r| - 1] == Decimal(n / 10);
    }
  }

  /** The line `recorded_event_image` composes: the time stamp, the id and the title, separated by commas. */
  function Line(stamp: seq<byte>, id: byte, title: seq<byte>): (line: seq<byte>)
    ensures |stamp| + |title| + 3 <= |line|
    ensures line[..|stamp|] == stamp && line[|stamp|] == COMMA
    ensures line[|line| - |title|..] == title && line[|line| - |title| - 1] == COMMA
  {
    stamp + [COMMA] + Decimal(id) + [COMMA] + title
  }

  /** Length of the leading field of `s`: the bytes before its first comma, or all of `s`. */
  function FieldEnd(s: seq<byte>): (k: nat)
    ensures k <= |s| && NoComma(s[..k])
    ensures k < |s| ==> s[k] == COMMA
  {
    if |s| == 0 || s[0] == COMMA then 0 else 1 + FieldEnd(s[1..])
  }

  /** A field without a comma ends at the comma that follows it. */
  lemma {:induction false} FieldEndAt(field: seq<byte>, rest: seq<byte>)
    requires NoComma(field)
    ensures FieldEnd(field + [COMMA] + rest) == |field|
  {
    if |field| > 0 {
      assert (field + [COMMA] + rest)[1..] == field[1..] + [COMMA] + rest;
      FieldEndAt(field[1..], rest);
    }
  }

  /**
   * A reference reader of the line format, against which the composer is
   * checked: the stamp up to the first comma, a decimal id up to the next
   * comma, the rest as the title. A line it accepts is the three fields it
   * returns, put back together around their two commas.
   */
  function ParseLine(line: seq<byte>): (r: Option<(seq<byte>, nat, seq<byte>)>)
    ensures r.Some? ==> var (stamp, _, title) := r.value;
      && |stamp| + 2 < |line| - |title| + 1 && NoComma(stamp)
      && line[..|stamp|] == stamp && line[|stamp|] == COMMA
      && line[|line| - |title|..] == title && line[|line| - |title| - 1] == COMMA
  {
    var a := FieldEnd(line);
    if a == |line| then None
    else
      var rest := line[a + 1..];
      var b := FieldEnd(rest);
      if b == 0 || b == |rest| || !(forall k | 0 <= k < b :: IsDigit(rest[k])) then None
      else Some((line[..a], DigitsValue(rest[..b]), rest[b + 1..]))
  }

  /** A line whose stamp holds no comma reads back as its three fields, whatever the title holds. */
  lemma LineParses(stamp: seq<byte>, id: byte, title: seq<byte>)
    requires NoComma(stamp)
    ensures ParseLine(Line(stamp, id, title)) == Some((stamp, id as nat, title))
  {
    var digits := Decimal(id);
    var line := Line(stamp, id, title);
    assert line == stamp + [COMMA] + (digits + [COMMA] + title);
    FieldEndAt(stamp, digits + [COMMA] + title);
    var rest := line[|stamp| + 1..];
    assert rest == digits + [COMMA] + title;
    assert NoComma(digits);
    FieldEndAt(digits, title);
    assert rest[..|digits|] == digits;
    assert line[..|stamp|] == stamp;
    assert rest[|digits| + 1..] == title;
    DecimalValue(id);
  }

  /** The stamp `recorded_event_image` prints never holds a comma, so its lines always read back. */
  lemma ImageParses(t: Tm, id: byte, title: seq<byte>)
    requires ValidTm(t)
    ensures ParseLine(Line(Rfc3339(t), id, title)) == Some((Rfc3339(t), id as nat, title))
  {
    LineParses(Rfc3339(t), id, title);
  }

  function Min(a: nat, b: nat): nat {
    if a <= b then a else b
  }

  /**
   * The copy `snprintf` makes at `buffer + at` with the rest of the buffer
   * as its room: as much of `s` as fits before a NUL, and the length of all
   * of `s` as the result.
   */
  method CopyTruncated(buffer: array<byte>, at: nat, s: seq<byte>) returns (full: nat)
    requires at < buffer.Length
    modifies buffer
    ensures full == |s|
    ensures var k := Min(|s|, buffer.Length - at - 1);
      buffer[..] == old(buffer[..at]) + s[..k] + [NUL] + old(buffer[at + k + 1..])
  {
    var k := Min(|s|, buffer.Length - at - 1);
    var i := 0;
    while i < k
      invariant i <= k
      invariant forall j | 0 <= j < buffer.Length :: buffer[j] == if at <= j < at + i then s[j - at] else old(buffer[j])
    {
      buffer[at + i] := s[i];
      i := i + 1;
    }
    buffer[at + k] := NUL;
    ghost var expected := old(buffer[..at]) + s[..k] + [NUL] + old(buffer[at + k + 1..]);
    forall j | 0 <= j < buffer.Length
      ensures buffer[j] == expected[j]
    {
      if j < at {
        assert expected[j] == old(buffer[..at])[j];
      } else if j < at + k {
        assert expected[j] == s[..k][j - at];
      } else if j > at + k {
        assert expected[j] == old(buffer[at + k + 1..])[j - at - k - 1];
      }
    }
    assert buffer[..] == expected;
    full := |s|;
  }

  /**
   * `strftime` into the whole buffer: the text and its NUL when both fit,
   * with the text's length as the result; 0 otherwise. C leaves the
   * buffer's contents unspecified after a 0; the model chooses to leave
   * it as it was, and no caller reads it then.
   */
  method Strftime(buffer: array<byte>, text: seq<byte>) returns (ret: nat)
    modifies buffer
    ensures |text| < buffer.Length ==> ret == |text| && buffer[..] == text + [NUL] + old(buffer[|text| + 1..])
    ensures |text| >= buffer.Length ==> ret == 0 && buffer[..] == old(buffer[..])
  {
    if |text| >= buffer.Length {
      return 0;
    }
    ret := CopyTruncated(buffer, 0, text);
    assert text[..Min(|text|, buffer.Length - 1)] == text;
  }

  /**
   * `recorded_event_image`: print the stamp of `tm` (None when `gmtime`
   * fails) and then ",<id>,<title>" into the buffer. It returns 0 when the
   * time cannot be converted or its stamp does not fit with its NUL;
   * otherwise the length of the whole line, even when the buffer holds
   * only the part of it that fits.
   */
  method RecordedEventImage(buffer: array<byte>, tm: Option<Tm>, id: byte, title: CStr) returns (sz: nat)
    requires tm.Some? ==> ValidTm(tm.value)
    modifies buffer
    ensures sz == 0 <==> tm.None? || buffer.Length <= |Rfc3339(tm.value)|
    ensures sz > 0 ==> sz == |Line(Rfc3339(tm.value), id, title)|
    ensures sz > 0 ==> (Terminated(buffer[..], 0)
      && StrAt(buffer[..], 0) == Truncate(Line(Rfc3339(tm.value), id, title), buffer.Length - 1))
  {
    sz := 0;
    if tm.None? {
      return;
    }
    var stamp := Rfc3339(tm.value);
    var ret := Strftime(buffer, stamp);
    if ret == 0 {
      return;
    }
    if ret >= buffer.Length {
      assert false;
    }
    assert buffer[..][..ret] == stamp;
    sz := PrintRecord(buffer, stamp, id, title);
  }

  /**
   * The `snprintf` of ",<id>,<title>" after the stamp already in the
   * buffer, and the sum of both lengths as the result.
   */
  method PrintRecord(buffer: array<byte>, stamp: CStr, id: byte, title: CStr) returns (sz: nat)
    requires |stamp| < buffer.Length && buffer[..][..|stamp|] == stamp
    modifies buffer
    ensures sz == |Line(stamp, id, title)| > 0
    ensures Terminated(buffer[..], 0) && StrAt(buffer[..], 0) == Truncate(Line(stamp, id, title), buffer.Length - 1)
  {
    ghost var before := buffer[..];
    var tail := [COMMA] + Decimal(id) + [COMMA] + title;
    assert NoNul(tail) by {
      assert forall k | 0 <= k < |Decimal(id)| :: IsDigit(Decimal(id)[k]);
    }
    var i := CopyTruncated(buffer, |stamp|, tail);
    if i <= 0 {
      assert false;
    }
    sz := |stamp| + i;
    ImageHolds(before, buffer[..], stamp, tail);
    assert stamp + tail == Line(stamp, id, title);
  }

  /** Bytes without NUL joined to bytes without NUL hold no NUL. */
  lemma NoNulJoin(a: seq<byte>, b: seq<byte>)
    requires NoNul(a) && NoNul(b)
    ensures NoNul(a + b)
  {
    assert forall k | 0 <= k < |a + b| :: (a + b)[k] == if k < |a| then a[k] else b[k - |a|];
  }

  /** Cutting a line after its stamp keeps the stamp and a prefix of the rest. */
  lemma TruncateJoin(stamp: seq<byte>, tail: seq<byte>, n: nat)
    requires |stamp| <= n
    ensures Truncate(stamp + tail, n) == stamp + tail[..Min(|tail|, n - |stamp|)]
  {
    if |stamp| + |tail| > n {
      assert (stamp + tail)[..n] == stamp + tail[..n - |stamp|];
    } else {
      assert tail[..|tail|] == tail;
    }
  }

  /** The buffer after both copies holds the stamp, then as much of the rest as fits, then a NUL. */
  lemma ImageHolds(before: seq<byte>, after: seq<byte>, stamp: seq<byte>, tail: seq<byte>)
    requires NoNul(stamp) && NoNul(tail) && |stamp| < |before| == |after|
    requires before[..|stamp|] == stamp
    requires var k := Min(|tail|, |before| - |stamp| - 1);
      after == before[..|stamp|] + tail[..k] + [NUL] + before[|stamp| + k + 1..]
    ensures Terminated(after, 0) && StrAt(after, 0) == Truncate(stamp + tail, |after| - 1)
  {
    var k := Min(|tail|, |before| - |stamp| - 1);
    var rest := before[|stamp| + k + 1..];
    var line := stamp + tail[..k];
    TruncateJoin(stamp, tail, |after| - 1);
    NoNulJoin(stamp, tail[..k]);
    StrAtPlaced([], line, rest);
    assert [] + line + [NUL] + rest == after;
  }

  /** Size of the sender's buffer. */
  const SEND_BUFFER: nat := 256

  /**
   * The title field `send_recorded_event` writes: the composed line as the
   * 256-byte buffer holds it, or the bare title when composing failed.
   */
  method OutboundTitle(tm: Option<Tm>, id: byte, title: CStr) returns (line: seq<byte>)
    requires tm.Some? ==> ValidTm(tm.value)
    ensures tm.Some? ==> line == Truncate(Line(Rfc3339(tm.value), id, title), SEND_BUFFER - 1)
    ensures tm.None? ==> line == title
  {
    var buffer := new byte[SEND_BUFFER];
    var sz := RecordedEventImage(buffer, tm, id, title);
    if sz != 0 {
      line := StrAt(buffer[..], 0);
    } else {
      line := title;
    }
  }
}

=== FILE: mainmenu.dfy ===
/**
 * The main menu (main_menu.c): a "Show Event Log" row, then one row per
 * shown catalog entry and one more per long entry. Selecting a shown
 * entry's row records its begin id; the rows rebuild from scratch, on
 * every window load and every catalog update while the window is loaded.
 */
module MainMenus {
  import opened Base
  import opened StrList
  import opened Names
  import opened Catalog
  import opened EventLog
  import opened Menus

  /** The leading rows of the main menu: the log row. */
  const EXTRA_ITEMS: nat := 1

  /** The file-scope state of main_menu.c. */
  class MainMenu {
    /** The window is loaded and its menu layer exists. */
    var loaded: bool
    /** The section's rows. */
    var items: array<Row>
    /** The last-seen times, indexed by catalog index. */
    const lastSeen: array<int>

    ghost predicate Valid()
      reads this
    {
      lastSeen.Length == LAST_SEEN_SLOTS
    }

    /** The rows show catalog `cat`. */
    ghost predicate Shows(cat: Catalog)
      reads this, items, cat, cat.names, cat.names.offsets
      requires cat.names.Valid()
    {
      && items.Length == NumItems(cat.names.Strings, EXTRA_ITEMS)
      && forall r | 0 <= r < items.Length :: items[r] == MainRow(cat.names.Strings, cat.beginPrefix, cat.endPrefix, r)
    }

    /** The zeroed statics: no window, no rows, nothing seen. */
    constructor ()
      ensures Valid() && !loaded && items.Length == 0 && fresh(lastSeen)
      ensures forall k | 0 <= k < LAST_SEEN_SLOTS :: lastSeen[k] == 0
    {
      loaded := false;
      items := new Row[0];
      lastSeen := new int[LAST_SEEN_SLOTS](_ => 0);
    }

    /**
     * `window_load`: read the last-seen times back from storage (a short
     * read leaves the slots past it alone) and build the rows.
     */
    method Load(cat: Catalog, stored: seq<int>)
      requires Valid() && cat.Consistent() && |stored| <= LAST_SEEN_SLOTS
      modifies this, lastSeen
      ensures Valid() && loaded && Shows(cat) && fresh(items)
      ensures lastSeen[..] == stored + old(lastSeen[|stored|..])
    {
      forall k | 0 <= k < |stored| {
        lastSeen[k] := stored[k];
      }
      assert lastSeen[..] == stored + old(lastSeen[|stored|..]);
      Rebuild(cat);
      loaded := true;
    }

    /** `update_main_menu`: rebuild the rows if the window is loaded, else nothing. */
    method Update(cat: Catalog)
      requires cat.Consistent()
      modifies this`items
      ensures loaded ==> Shows(cat) && fresh(items)
      ensures !loaded ==> items == old(items)
    {
      if !loaded {
        return;
      }
      Rebuild(cat);
    }

    /**
     * `rebuild_menu`: count the rows, allocate a zeroed row buffer, write
     * the log row, then the placeholder or every entry's rows.
     */
    method Rebuild(cat: Catalog)
      requires cat.Consistent()
      modifies this`items
      ensures Shows(cat) && fresh(items)
    {
      ghost var strs := cat.names.Strings;
      MenuSizeCounts(strs);
      var size := CountRows(cat.names);
      var numItems := (if size == 0 then 1 else size) + EXTRA_ITEMS;
      items := new Row[numItems](_ => EMPTY_ROW);
      items[0] := Row(SHOW_EVENT_LOG, ShowLog);
      if size == 0 {
        items[EXTRA_ITEMS] := Row(NO_EVENT_CONFIGURED, NoAction);
        forall r | 0 <= r < numItems
          ensures items[r] == MainRow(strs, cat.beginPrefix, cat.endPrefix, r)
        {
          OwnerRow(strs, EXTRA_ITEMS, r);
        }
        return;
      }
      Fill(items, cat, size);
    }

    /** The fill loop of `rebuild_menu` over a non-empty body. */
    static method Fill(items: array<Row>, cat: Catalog, size: nat)
      requires cat.Consistent()
      requires size == MenuSize(cat.names.Strings) > 0 && EXTRA_ITEMS + size <= 256
      requires items.Length == EXTRA_ITEMS + size && items[0] == Row(SHOW_EVENT_LOG, ShowLog)
      modifies items
      ensures forall r | 0 <= r < items.Length :: items[r] == MainRow(cat.names.Strings, cat.beginPrefix, cat.endPrefix, r)
    {
      var names := cat.names;
      ghost var strs := names.Strings;
      ghost var off := NothingRunning(|strs|);
      MenuSizeCounts(strs);
      var j := EXTRA_ITEMS;
      var i := 0;
      while i < names.count
        invariant i <= names.count
        invariant j == EXTRA_ITEMS + CountShown(strs[..i])
        invariant items[0] == Row(SHOW_EVENT_LOG, ShowLog)
        invariant EntriesUpTo(items[..], strs, cat.beginPrefix, cat.endPrefix, off, EXTRA_ITEMS, i)
      {
        var name := names.UnsafeItem(i);
        CountStep(strs, i);
        if ByteAt(name, 0) == MINUS {
          StepHidden(items[..], strs, cat.beginPrefix, cat.endPrefix, off, EXTRA_ITEMS, i);
          i := i + 1;
          continue;
        }
        FillEntry(cat, items, size, i, j, name);
        j := j + 1;
        i := i + 1;
      }
      assert strs[..i] == strs;
      EntriesShow(items[..], strs, cat.beginPrefix, cat.endPrefix, off, EXTRA_ITEMS);
      MainRowsShow(items[..], strs, cat.beginPrefix, cat.endPrefix);
    }

    /** One round of the fill loop on shown entry `i`, whose row is `j`: the begin label or the name there, the end label at the entry's second row. */
    static method FillEntry(cat: Catalog, items: array<Row>, size: nat, i: nat, j: nat, name: seq<byte>)
      requires cat.Consistent() && i < cat.names.count && name == cat.names.Strings[i] && !IsHidden(name)
      requires size == MenuSize(cat.names.Strings) && EXTRA_ITEMS + size <= 256 && items.Length == EXTRA_ITEMS + size
      requires j == PrimaryRow(cat.names.Strings, EXTRA_ITEMS, i)
      requires EntriesUpTo(items[..], cat.names.Strings, cat.beginPrefix, cat.endPrefix, NothingRunning(|cat.names.Strings|), EXTRA_ITEMS, i)
      modifies items
      ensures items[0] == old(items[0])
      ensures EntriesUpTo(items[..], cat.names.Strings, cat.beginPrefix, cat.endPrefix, NothingRunning(|cat.names.Strings|), EXTRA_ITEMS, i + 1)
    {
      ghost var strs := cat.names.Strings;
      ghost var off := NothingRunning(|strs|);
      ghost var rows := items[..];
      PrimaryRowRange(strs, EXTRA_ITEMS, i);
      MenuSizeCounts(strs);
      if ByteAt(name, 0) == PLUS {
        var otherJ, beginLabel, endLabel := LongRows(cat, EXTRA_ITEMS, size, i);
        SecondaryRowRange(strs, EXTRA_ITEMS, i);
        var primary := Row(beginLabel, RecordEvent);
        var secondary := Row(endLabel, RecordEvent);
        items[j] := primary;
        items[otherJ] := secondary;
        assert items[..] == rows[j := primary][otherJ := secondary];
        StepLong(rows, strs, cat.beginPrefix, cat.endPrefix, off, EXTRA_ITEMS, i);
      } else {
        items[j] := Row(name, RecordEvent);
        assert items[..] == rows[j := Row(name, RecordEvent)];
        StepShort(rows, strs, cat.beginPrefix, cat.endPrefix, off, EXTRA_ITEMS, i);
      }
    }

    /**
     * `do_record_event`: an index below the log row is refused; otherwise
     * the search walks the shown entries and, at the one whose row is
     * `index`, records its begin id and notes the time. The end rows are
     * never matched and record nothing.
     */
    method DoRecordEvent(index: int, cat: Catalog, log: EventLog, now: int)
      requires Valid() && cat.Consistent() && log.Valid()
      requires RowOwner(cat.names.Strings, EXTRA_ITEMS, index).Primary? ==>
        RowOwner(cat.names.Strings, EXTRA_ITEMS, index).entry < LAST_SEEN_SLOTS
      modifies lastSeen, log`nextIndex, log.page
      ensures log.Valid()
      ensures Logged(old(log.page[..]), old(log.nextIndex), log.page[..], log.nextIndex, MainCode(cat.names.Strings, index), now)
      ensures RowOwner(cat.names.Strings, EXTRA_ITEMS, index).Primary? ==>
        lastSeen[..] == old(lastSeen[..])[RowOwner(cat.names.Strings, EXTRA_ITEMS, index).entry := now]
      ensures !RowOwner(cat.names.Strings, EXTRA_ITEMS, index).Primary? ==> lastSeen[..] == old(lastSeen[..])
    {
      ghost var strs := cat.names.Strings;
      if index < EXTRA_ITEMS {
        OwnerRow(strs, EXTRA_ITEMS, index);
        return;
      }
      var found := LocatePrimary(index, cat);
      match found
      case Some(id) =>
        log.Record(id + BEGIN_OFFSET, now);
        lastSeen[id] := now;
      case None =>
    }
  }

  /**
   * The search loop of the main menu's `do_record_event`: walk the shown
   * entries, counting their rows from row 1, and stop at the one whose row
   * is `index`. It finds the row's owner exactly when that is a primary row.
   */
  method LocatePrimary(index: int, cat: Catalog) returns (found: Option<nat>)
    requires cat.Consistent()
    ensures found.Some? <==> RowOwner(cat.names.Strings, EXTRA_ITEMS, index).Primary?
    ensures found.Some? ==> found.value == RowOwner(cat.names.Strings, EXTRA_ITEMS, index).entry
  {
    var names := cat.names;
    ghost var strs := names.Strings;
    var id := 0;
    var i := EXTRA_ITEMS;
    while id < names.count
      invariant id <= names.count
      invariant i == EXTRA_ITEMS + CountShown(strs[..id])
      invariant !PrimaryBelow(strs, index, id)
    {
      var name := names.UnsafeItem(id);
      CountStep(strs, id);
      if ByteAt(name, 0) == MINUS {
        PassPrimary(strs, index, id);
        id := id + 1;
        continue;
      }
      if i == index {
        PrimaryRowOwner(strs, EXTRA_ITEMS, id);
        return Some(id);
      }
      PassPrimary(strs, index, id);
      i := i + 1;
      id := id + 1;
    }
    assert strs[..id] == strs;
    OwnerRow(strs, EXTRA_ITEMS, index);
    return None;
  }

  /** Below the log row the rows are the event menu's with nothing running, so they are the main menu's rows. */
  lemma MainRowsShow(rows: seq<Row>, strs: seq<seq<byte>>, bp: seq<byte>, ep: seq<byte>)
    requires |rows| >= EXTRA_ITEMS && rows[0] == Row(SHOW_EVENT_LOG, ShowLog)
    requires forall r | EXTRA_ITEMS <= r < |rows| :: rows[r] == EventRow(strs, bp, ep, NothingRunning(|strs|), EXTRA_ITEMS, r)
    ensures forall r | 0 <= r < |rows| :: rows[r] == MainRow(strs, bp, ep, r)
  {
    forall r | 0 <= r < |rows|
      ensures rows[r] == MainRow(strs, bp, ep, r)
    {
      if r > 0 {
        MainIsEventMenu(strs, bp, ep, r);
      }
    }
  }

  /** Row `index` is the primary row of an entry below `id`. */
  predicate PrimaryBelow(strs: seq<seq<byte>>, index: int, id: nat) {
    RowOwner(strs, EXTRA_ITEMS, index).Primary? && RowOwner(strs, EXTRA_ITEMS, index).entry < id
  }

  /** A row that is not entry `id`'s primary row is not owned as a primary row by it. */
  lemma PassPrimary(strs: seq<seq<byte>>, index: int, id: nat)
    requires id < |strs| && !PrimaryBelow(strs, index, id)
    requires !IsHidden(strs[id]) ==> index != PrimaryRow(strs, EXTRA_ITEMS, id)
    ensures !PrimaryBelow(strs, index, id + 1)
  {
    OwnerRow(strs, EXTRA_ITEMS, index);
  }
}

=== FILE: menu.dfy ===
/**
 * What the two menus show and what a selection in them records, as
 * functions of the catalog. A row is reduced to its title and to what
 * selecting it does; the time-stamp subtitles are not part of the model.
 *
 * Record ids follow the code: selecting entry `i` records `i + 1` for a
 * begin (or a short event) and `i + 128` for an end.
 */
module Menus {
  import opened Base
  import opened StrList
  import opened Names
  import opened Catalog

  /** What selecting a row does: nothing (the placeholder), open the log view, or record an event. */
  datatype Action = NoAction | ShowLog | RecordEvent

  datatype Row = Row(title: seq<byte>, action: Action)

  /** A zeroed `SimpleMenuItem`: no title, no callback. */
  const EMPTY_ROW: Row := Row([], NoAction)

  /** "No event configured." */
  const NO_EVENT_CONFIGURED: seq<byte> :=
    [78, 111, 32, 101, 118, 101, 110, 116, 32, 99, 111, 110, 102, 105, 103, 117, 114, 101, 100, 46]
  /** "Show Event Log" */
  const SHOW_EVENT_LOG: seq<byte> := [83, 104, 111, 119, 32, 69, 118, 101, 110, 116, 32, 76, 111, 103]

  /** Bits of the running set; it is indexed by catalog index. */
  const RUNNING_BITS: nat := 128
  /** Slots of the last-seen table; it is indexed by catalog index. */
  const LAST_SEEN_SLOTS: nat := 64

  /** The offset added to a catalog index to record a begin or a short event. */
  const BEGIN_OFFSET: nat := 1
  /** The offset added to a catalog index to record an end. */
  const END_OFFSET: nat := 128

  /** The row `r` belongs to an entry below `i`: the fill loop has written it once it is past that entry. */
  predicate Filled(names: seq<seq<byte>>, extra: nat, r: int, i: nat) {
    match RowOwner(names, extra, r)
    case Primary(e) => e < i
    case Secondary(e) => e < i
    case _ => false
  }

  /** The selected row belongs to an entry whose last-seen slot exists. */
  predicate SeenSlot(names: seq<seq<byte>>, extra: nat, r: int) {
    match RowOwner(names, extra, r)
    case Primary(e) => e < LAST_SEEN_SLOTS
    case Secondary(e) => e < LAST_SEEN_SLOTS
    case _ => true
  }

  /** The first loop of both rebuilds: two rows per long entry, one per other shown entry. */
  method CountRows(names: StringList) returns (size: nat)
    requires names.Valid()
    ensures size == MenuSize(names.Strings)
  {
    ghost var strs := names.Strings;
    size := 0;
    var i := 0;
    while i < names.count
      invariant i <= names.count
      invariant size == MenuSize(strs[..i])
    {
      var name := names.UnsafeItem(i);
      CountStep(strs, i);
      if ByteAt(name, 0) == PLUS {
        size := size + 2;
      } else if ByteAt(name, 0) != MINUS {
        size := size + 1;
      }
      i := i + 1;
    }
    assert strs[..names.count] == strs;
  }

  /**
   * The long-entry half of a fill round: the entry's long id less one
   * (`long_id`), the 8-bit secondary row `other_j` computed from it, and the
   * two labels stored at `long_id`.
   */
  method LongRows(cat: Catalog, extra: nat, size: nat, i: nat) returns (otherJ: nat, beginLabel: seq<byte>, endLabel: seq<byte>)
    requires cat.Consistent() && i < cat.names.count && IsLong(cat.names.Strings[i])
    requires size == MenuSize(cat.names.Strings) && extra + size <= 256
    ensures otherJ == SecondaryRow(cat.names.Strings, extra, i)
    ensures beginLabel == Label(cat.beginPrefix, cat.names.Strings[i])
    ensures endLabel == Label(cat.endPrefix, cat.names.Strings[i])
  {
    ghost var strs := cat.names.Strings;
    ghost var id := LongId(strs, i);
    LongIdBound(strs, i);
    SecondaryRowRange(strs, extra, i);
    SecondaryRowFormula(strs, extra, i);
    assert cat.longEventId[i] == id;
    var longId := (cat.longEventId[i] - 1) % 256;
    assert longId == id - 1;
    otherJ := (extra + size - cat.longEventCount + longId) % 256;
    if cat.longEventId[i] == 0 {
      assert false;
    }
    LabelAt(cat.beginPrefix, strs, i);
    beginLabel := cat.begins.UnsafeItem(longId);
    assert beginLabel == Labels(cat.beginPrefix, strs)[id - 1];
    LabelAt(cat.endPrefix, strs, i);
    endLabel := cat.ends.UnsafeItem(longId);
    assert endLabel == Labels(cat.endPrefix, strs)[id - 1];
  }

  // ---------------------------------------------------------------------
  // The event menu (several leading rows given by the caller, running bits)

  /** A shown entry's primary row: the end label of a running long entry, the begin label of another long entry, else the name. */
  function EventPrimary(names: seq<seq<byte>>, bp: seq<byte>, ep: seq<byte>, running: seq<bool>, i: nat): Row
    requires i < |names| <= |running|
  {
    if IsLong(names[i]) then Row(Label(if running[i] then ep else bp, names[i]), RecordEvent)
    else Row(names[i], RecordEvent)
  }

  /** A long entry's secondary row: the label its primary row does not show. */
  function EventSecondary(names: seq<seq<byte>>, bp: seq<byte>, ep: seq<byte>, running: seq<bool>, i: nat): Row
    requires i < |names| <= |running| && IsLong(names[i])
  {
    Row(Label(if running[i] then bp else ep, names[i]), RecordEvent)
  }

  /** Row `r` of the event menu, read off its owner. */
  function EventRow(names: seq<seq<byte>>, bp: seq<byte>, ep: seq<byte>, running: seq<bool>, extra: nat, r: int): Row
    requires |names| <= |running|
  {
    match RowOwner(names, extra, r)
    case Placeholder => Row(NO_EVENT_CONFIGURED, NoAction)
    case Primary(i) => EventPrimary(names, bp, ep, running, i)
    case Secondary(i) => EventSecondary(names, bp, ep, running, i)
    case Outside => EMPTY_ROW
  }

  /**
   * The id selecting a row owned by `s` records: a long entry's primary row
   * records its end while it runs and its begin otherwise, its secondary
   * row the opposite; a short entry records its begin id; the leading rows,
   * the placeholder and rows past the end record nothing.
   */
  function SlotCode(names: seq<seq<byte>>, running: seq<bool>, s: Slot): Option<nat>
    requires |names| <= |running| && ((s.Primary? || s.Secondary?) ==> s.entry < |names|)
  {
    match s
    case Primary(i) => Some(if IsLong(names[i]) && running[i] then i + END_OFFSET else i + BEGIN_OFFSET)
    case Secondary(i) => Some(if running[i] then i + BEGIN_OFFSET else i + END_OFFSET)
    case _ => None
  }

  /** The running bits after selecting a row owned by `s`: only a long entry's primary row flips its entry's bit. */
  function SlotRunning(names: seq<seq<byte>>, running: seq<bool>, s: Slot): seq<bool>
    requires |names| <= |running| && ((s.Primary? || s.Secondary?) ==> s.entry < |names|)
  {
    match s
    case Primary(i) => if IsLong(names[i]) then running[i := !running[i]] else running
    case _ => running
  }

  /** The last-seen times after selecting a row owned by `s`: its entry's slot, if it has an entry, becomes `now`. */
  function SlotSeen(seen: seq<int>, s: Slot, now: int): seq<int>
    requires (s.Primary? || s.Secondary?) ==> s.entry < |seen|
  {
    match s
    case Primary(i) => seen[i := now]
    case Secondary(i) => seen[i := now]
    case _ => seen
  }

  /** Selecting a row owned by `s` rebuilds the menu: a long entry's primary or secondary row. */
  predicate SlotRebuilds(names: seq<seq<byte>>, s: Slot)
    requires (s.Primary? || s.Secondary?) ==> s.entry < |names|
  {
    match s
    case Primary(i) => IsLong(names[i])
    case Secondary(_) => true
    case _ => false
  }

  /** The id selecting row `r` of the event menu records: an id exactly on an entry's row, and that entry's begin or end id. */
  function EventCode(names: seq<seq<byte>>, running: seq<bool>, extra: nat, r: int): (c: Option<nat>)
    requires |names| <= |running|
    ensures c.Some? <==> RowOwner(names, extra, r).Primary? || RowOwner(names, extra, r).Secondary?
    ensures c.Some? ==> c.value == RowOwner(names, extra, r).entry + BEGIN_OFFSET || c.value == RowOwner(names, extra, r).entry + END_OFFSET
  {
    SlotCode(names, running, RowOwner(names, extra, r))
  }

  /** The running bits after selecting row `r`: they differ at most at the row's entry, and only when that is a long entry's primary row. */
  function EventRunning(names: seq<seq<byte>>, running: seq<bool>, extra: nat, r: int): (after: seq<bool>)
    requires |names| <= |running|
    ensures |after| == |running|
    ensures forall k | 0 <= k < |running| && after[k] != running[k] ::
      RowOwner(names, extra, r) == Primary(k) && IsLong(names[k])
  {
    SlotRunning(names, running, RowOwner(names, extra, r))
  }

  /**
   * Selecting a long entry's primary row twice records its begin and then
   * its end (or the other way round when it was running) and leaves the
   * running bits as they were.
   */
  lemma SelectTwice(names: seq<seq<byte>>, running: seq<bool>, extra: nat, i: nat)
    requires i < |names| <= |running| && IsLong(names[i])
    ensures var r := PrimaryRow(names, extra, i);
      var once := EventRunning(names, running, extra, r);
      && once[i] == !running[i]
      && EventRunning(names, once, extra, r) == running
      && EventCode(names, running, extra, r) == Some(if running[i] then i + END_OFFSET else i + BEGIN_OFFSET)
      && EventCode(names, once, extra, r) == Some(if running[i] then i + BEGIN_OFFSET else i + END_OFFSET)
  {
    PrimaryRowOwner(names, extra, i);
  }

  /**
   * The two rows of a long entry record opposite ends, and each row records
   * the end its label names: the end id exactly on the row showing the end
   * label.
   */
  lemma RowsMatchCodes(names: seq<seq<byte>>, bp: seq<byte>, ep: seq<byte>, running: seq<bool>, extra: nat, i: nat)
    requires i < |names| <= |running| && IsLong(names[i])
    ensures var p := PrimaryRow(names, extra, i);
      var s := SecondaryRow(names, extra, i);
      && {EventCode(names, running, extra, p), EventCode(names, running, extra, s)} == {Some(i + BEGIN_OFFSET), Some(i + END_OFFSET)}
      && EventRow(names, bp, ep, running, extra, p).title
         == Label(if EventCode(names, running, extra, p) == Some(i + END_OFFSET) then ep else bp, names[i])
      && EventRow(names, bp, ep, running, extra, s).title
         == Label(if EventCode(names, running, extra, s) == Some(i + END_OFFSET) then ep else bp, names[i])
  {
    PrimaryRowOwner(names, extra, i);
    SecondaryRowOwner(names, extra, i);
  }

  /** A recorded id decoded back: the catalog index and whether it marks an end. */
  function DecodeCode(c: nat): (nat, bool)
    requires c >= BEGIN_OFFSET
  {
    if c >= END_OFFSET then (c - END_OFFSET, true) else (c - BEGIN_OFFSET, false)
  }

  /**
   * On a catalog of at most 82 entries every recorded id fits the byte that
   * carries it, is not the "no event" 0, and decodes to the selected row's
   * entry; only a long entry ever records an end.
   */
  lemma CodeDecodes(names: seq<seq<byte>>, running: seq<bool>, extra: nat, r: int)
    requires |names| <= MAX_COUNT && |names| <= |running|
    requires EventCode(names, running, extra, r).Some?
    ensures var c := EventCode(names, running, extra, r).value;
      && 0 < c < 256
      && DecodeCode(c).0 == RowOwner(names, extra, r).entry
      && (DecodeCode(c).1 ==> IsLong(names[DecodeCode(c).0]))
  {
  }

  // ---------------------------------------------------------------------
  // The fill loops of both rebuilds, entry by entry

  /** Every shown entry below `i` has its primary row, and every long one its secondary row, in place. */
  ghost predicate EntriesUpTo(rows: seq<Row>, strs: seq<seq<byte>>, bp: seq<byte>, ep: seq<byte>, run: seq<bool>, extra: nat, i: nat)
    requires i <= |strs| <= |run|
  {
    PrimariesUpTo(rows, strs, bp, ep, run, extra, i) && SecondariesUpTo(rows, strs, bp, ep, run, extra, i)
  }

  /** Every shown entry below `i` has its primary row in place. */
  ghost predicate PrimariesUpTo(rows: seq<Row>, strs: seq<seq<byte>>, bp: seq<byte>, ep: seq<byte>, run: seq<bool>, extra: nat, i: nat)
    requires i <= |strs| <= |run|
  {
    forall e | 0 <= e < i && !IsHidden(strs[e]) ::
      PrimaryRow(strs, extra, e) < |rows| && rows[PrimaryRow(strs, extra, e)] == EventPrimary(strs, bp, ep, run, e)
  }

  /** Every long entry below `i` has its secondary row in place. */
  ghost predicate SecondariesUpTo(rows: seq<Row>, strs: seq<seq<byte>>, bp: seq<byte>, ep: seq<byte>, run: seq<bool>, extra: nat, i: nat)
    requires i <= |strs| <= |run|
  {
    forall e | 0 <= e < i && IsLong(strs[e]) ::
      SecondaryRow(strs, extra, e) < |rows| && rows[SecondaryRow(strs, extra, e)] == EventSecondary(strs, bp, ep, run, e)
  }

  /** A hidden entry has no rows. */
  lemma StepHidden(rows: seq<Row>, strs: seq<seq<byte>>, bp: seq<byte>, ep: seq<byte>, run: seq<bool>, extra: nat, i: nat)
    requires i < |strs| <= |run| && IsHidden(strs[i])
    requires EntriesUpTo(rows, strs, bp, ep, run, extra, i)
    ensures EntriesUpTo(rows, strs, bp, ep, run, extra, i + 1)
  {
  }

  /** Writing a short entry's row at its primary row leaves the rows of the entries before it alone. */
  lemma StepShort(rows: seq<Row>, strs: seq<seq<byte>>, bp: seq<byte>, ep: seq<byte>, run: seq<bool>, extra: nat, i: nat)
    requires i < |strs| <= |run| && !IsHidden(strs[i]) && !IsLong(strs[i])
    requires |rows| == extra + MenuSize(strs) && EntriesUpTo(rows, strs, bp, ep, run, extra, i)
    ensures PrimaryRow(strs, extra, i) < |rows|
    ensures EntriesUpTo(rows[PrimaryRow(strs, extra, i) := EventPrimary(strs, bp, ep, run, i)], strs, bp, ep, run, extra, i + 1)
  {
    PrimaryRowRange(strs, extra, i);
    MenuSizeCounts(strs);
    var p := PrimaryRow(strs, extra, i);
    var rows' := rows[p := EventPrimary(strs, bp, ep, run, i)];
    forall e | 0 <= e < i + 1 && !IsHidden(strs[e])
      ensures PrimaryRow(strs, extra, e) < |rows'| && rows'[PrimaryRow(strs, extra, e)] == EventPrimary(strs, bp, ep, run, e)
    {
      if e < i {
        CountMonotone(strs, e, i);
      }
    }
  }

  /** Writing a long entry's two rows leaves the rows of the entries before it alone. */
  lemma StepLong(rows: seq<Row>, strs: seq<seq<byte>>, bp: seq<byte>, ep: seq<byte>, run: seq<bool>, extra: nat, i: nat)
    requires i < |strs| <= |run| && IsLong(strs[i])
    requires |rows| == extra + MenuSize(strs) && EntriesUpTo(rows, strs, bp, ep, run, extra, i)
    ensures PrimaryRow(strs, extra, i) < |rows| && SecondaryRow(strs, extra, i) < |rows|
    ensures EntriesUpTo(rows[PrimaryRow(strs, extra, i) := EventPrimary(strs, bp, ep, run, i)]
                            [SecondaryRow(strs, extra, i) := EventSecondary(strs, bp, ep, run, i)],
                        strs, bp, ep, run, extra, i + 1)
  {
    PrimaryRowRange(strs, extra, i);
    SecondaryRowRange(strs, extra, i);
    var p, q := PrimaryRow(strs, extra, i), SecondaryRow(strs, extra, i);
    var rows' := rows[p := EventPrimary(strs, bp, ep, run, i)][q := EventSecondary(strs, bp, ep, run, i)];
    LongKeepsPrimaries(rows, rows', strs, bp, ep, run, extra, i);
    LongKeepsSecondaries(rows, rows', strs, bp, ep, run, extra, i);
  }

  /** The primary-row half of `StepLong`. */
  lemma LongKeepsPrimaries(rows: seq<Row>, rows': seq<Row>, strs: seq<seq<byte>>, bp: seq<byte>, ep: seq<byte>, run: seq<bool>, extra: nat, i: nat)
    requires i < |strs| <= |run| && IsLong(strs[i])
    requires |rows| == extra + MenuSize(strs) && PrimariesUpTo(rows, strs, bp, ep, run, extra, i)
    requires PrimaryRow(strs, extra, i) < |rows| && SecondaryRow(strs, extra, i) < |rows|
    requires rows' == rows[PrimaryRow(strs, extra, i) := EventPrimary(strs, bp, ep, run, i)]
                          [SecondaryRow(strs, extra, i) := EventSecondary(strs, bp, ep, run, i)]
    ensures PrimariesUpTo(rows', strs, bp, ep, run, extra, i + 1)
  {
    PrimaryRowRange(strs, extra, i);
    SecondaryRowRange(strs, extra, i);
    forall e | 0 <= e < i + 1 && !IsHidden(strs[e])
      ensures PrimaryRow(strs, extra, e) < |rows'| && rows'[PrimaryRow(strs, extra, e)] == EventPrimary(strs, bp, ep, run, e)
    {
      if e < i {
        CountMonotone(strs, e, i);
        PrimaryRowRange(strs, extra, e);
      }
    }
  }

  /** The secondary-row half of `StepLong`. */
  lemma LongKeepsSecondaries(rows: seq<Row>, rows': seq<Row>, strs: seq<seq<byte>>, bp: seq<byte>, ep: seq<byte>, run: seq<bool>, extra: nat, i: nat)
    requires i < |strs| <= |run| && IsLong(strs[i])
    requires |rows| == extra + MenuSize(strs) && SecondariesUpTo(rows, strs, bp, ep, run, extra, i)
    requires PrimaryRow(strs, extra, i) < |rows| && SecondaryRow(strs, extra, i) < |rows|
    requires rows' == rows[PrimaryRow(strs, extra, i) := EventPrimary(strs, bp, ep, run, i)]
                          [SecondaryRow(strs, extra, i) := EventSecondary(strs, bp, ep, run, i)]
    ensures SecondariesUpTo(rows', strs, bp, ep, run, extra, i + 1)
  {
    PrimaryRowRange(strs, extra, i);
    SecondaryRowRange(strs, extra, i);
    forall e | 0 <= e < i + 1 && IsLong(strs[e])
      ensures SecondaryRow(strs, extra, e) < |rows'| && rows'[SecondaryRow(strs, extra, e)] == EventSecondary(strs, bp, ep, run, e)
    {
      if e < i {
        CountMonotone(strs, e, i);
        SecondaryRowRange(strs, extra, e);
      }
    }
  }

  /** Once every entry's rows are in place, each row of the body is the one its owner calls for. */
  lemma EntriesShow(rows: seq<Row>, strs: seq<seq<byte>>, bp: seq<byte>, ep: seq<byte>, run: seq<bool>, extra: nat)
    requires |strs| <= |run| && MenuSize(strs) > 0 && |rows| == extra + MenuSize(strs)
    requires EntriesUpTo(rows, strs, bp, ep, run, extra, |strs|)
    ensures forall r | extra <= r < |rows| :: rows[r] == EventRow(strs, bp, ep, run, extra, r)
  {
    forall r | extra <= r < |rows|
      ensures rows[r] == EventRow(strs, bp, ep, run, extra, r)
    {
      OwnerRow(strs, extra, r);
    }
  }

  // ---------------------------------------------------------------------
  // The main menu (one leading "Show Event Log" row, no running bits)

  /** Running bits with no entry running. */
  function NothingRunning(n: nat): (bits: seq<bool>)
    ensures |bits| == n && forall k | 0 <= k < n :: !bits[k]
  {
    seq(n, _ => false)
  }

  /** Row `r` of the main menu: the log action, then the begin labels or names, then the end labels. */
  function MainRow(names: seq<seq<byte>>, bp: seq<byte>, ep: seq<byte>, r: int): Row {
    if r == 0 then Row(SHOW_EVENT_LOG, ShowLog)
    else match RowOwner(names, 1, r)
      case Placeholder => Row(NO_EVENT_CONFIGURED, NoAction)
      case Primary(i) => if IsLong(names[i]) then Row(Label(bp, names[i]), RecordEvent) else Row(names[i], RecordEvent)
      case Secondary(i) => Row(Label(ep, names[i]), RecordEvent)
      case Outside => EMPTY_ROW
  }

  /** The id selecting row `r` of the main menu records: the begin id of a primary row's entry, nothing elsewhere. */
  function MainCode(names: seq<seq<byte>>, r: int): (c: Option<nat>)
    ensures c.Some? <==> RowOwner(names, 1, r).Primary?
  {
    match RowOwner(names, 1, r)
    case Primary(i) => Some(i + BEGIN_OFFSET)
    case _ => None
  }

  /**
   * Below its first row the main menu is the event menu with one leading row
   * and nothing running; it records the same as that menu on primary rows,
   * and nothing on the end rows, where that menu records an end (see
   * MainIgnoresRunning for a menu with something running).
   */
  lemma MainIsEventMenu(names: seq<seq<byte>>, bp: seq<byte>, ep: seq<byte>, r: int)
    requires r >= 1
    ensures MainRow(names, bp, ep, r) == EventRow(names, bp, ep, NothingRunning(|names|), 1, r)
    ensures RowOwner(names, 1, r).Primary? ==> MainCode(names, r) == EventCode(names, NothingRunning(|names|), 1, r)
    ensures RowOwner(names, 1, r).Secondary? ==>
      MainCode(names, r).None? && EventCode(names, NothingRunning(|names|), 1, r) == Some(RowOwner(names, 1, r).entry + END_OFFSET)
  {
  }

  /**
   * The main menu has no running bits: a long entry's primary row records
   * its begin id even while the event menu, with that entry running,
   * records its end id on the same row.
   */
  lemma MainIgnoresRunning(names: seq<seq<byte>>, running: seq<bool>, r: int)
    requires |names| <= |running| && RowOwner(names, 1, r).Primary?
    ensures MainCode(names, r) == Some(RowOwner(names, 1, r).entry + BEGIN_OFFSET)
    ensures var i := RowOwner(names, 1, r).entry;
      IsLong(names[i]) && running[i] ==> EventCode(names, running, 1, r) == Some(i + END_OFFSET)
  {
  }
}

=== FILE: names.dfy ===
/**
 * The event catalog as the menus read it: an entry starting with '-' is
 * hidden, one starting with '+' is a long event with a begin and an end, any
 * other entry (the empty one included) is a short event. This module holds
 * the counting and row arithmetic shared by both menus, and the begin/end
 * labels built for long events.
 */
module Names {
  import opened Base

  predicate IsLong(name: seq<byte>) {
    |name| > 0 && name[0] == PLUS
  }

  predicate IsHidden(name: seq<byte>) {
    |name| > 0 && name[0] == MINUS
  }

  /** Number of entries that get a menu row: all but the hidden ones. */
  function CountShown(names: seq<seq<byte>>): (c: nat)
    ensures c <= |names|
  {
    if |names| == 0 then 0
    else CountShown(names[..|names| - 1]) + if IsHidden(names[|names| - 1]) then 0 else 1
  }

  /** Number of long entries; every long entry is shown. */
  function CountLong(names: seq<seq<byte>>): (c: nat)
    ensures c <= CountShown(names)
  {
    if |names| == 0 then 0
    else CountLong(names[..|names| - 1]) + if IsLong(names[|names| - 1]) then 1 else 0
  }

  /** Rows an entry takes in a menu: two for a long entry, none for a hidden one. */
  function Weight(name: seq<byte>): nat {
    if IsLong(name) then 2 else if IsHidden(name) then 0 else 1
  }

  /** The `size` both menus accumulate over the catalog. */
  function MenuSize(names: seq<seq<byte>>): nat {
    if |names| == 0 then 0 else MenuSize(names[..|names| - 1]) + Weight(names[|names| - 1])
  }

  /** One primary row per shown entry and one secondary row per long entry. */
  lemma {:induction false} MenuSizeCounts(names: seq<seq<byte>>)
    ensures MenuSize(names) == CountShown(names) + CountLong(names)
    decreases |names|
  {
    if |names| > 0 {
      MenuSizeCounts(names[..|names| - 1]);
    }
  }

  /** The counts over `names[..i + 1]` extend those over `names[..i]` by entry `i`. */
  lemma CountStep(names: seq<seq<byte>>, i: nat)
    requires i < |names|
    ensures CountShown(names[..i + 1]) == CountShown(names[..i]) + if IsHidden(names[i]) then 0 else 1
    ensures CountLong(names[..i + 1]) == CountLong(names[..i]) + if IsLong(names[i]) then 1 else 0
    ensures MenuSize(names[..i + 1]) == MenuSize(names[..i]) + Weight(names[i])
  {
    assert names[..i + 1][..i] == names[..i];
  }

  /** A later prefix counts every shown or long entry of an earlier one, and entry `i` itself. */
  lemma {:induction false} CountMonotone(names: seq<seq<byte>>, i: nat, j: nat)
    requires i < j <= |names|
    ensures CountShown(names[..i]) + (if IsHidden(names[i]) then 0 else 1) <= CountShown(names[..j])
    ensures CountLong(names[..i]) + (if IsLong(names[i]) then 1 else 0) <= CountLong(names[..j])
    decreases j - i
  {
    CountStep(names, j - 1);
    if i < j - 1 {
      CountMonotone(names, i, j - 1);
    }
  }

  /**
   * The id `preprocess_long_events` gives entry `i`: 0 for an entry that is
   * not long, else one more than the number of long entries before it.
   */
  function LongId(names: seq<seq<byte>>, i: nat): (id: nat)
    requires i < |names|
  {
    if IsLong(names[i]) then CountLong(names[..i]) + 1 else 0
  }

  /** Long ids run from 1 to the number of long entries, ascending in catalog order. */
  lemma LongIdRange(names: seq<seq<byte>>, i: nat, j: nat)
    requires i < j < |names| && IsLong(names[i]) && IsLong(names[j])
    ensures 1 <= LongId(names, i) < LongId(names, j) <= CountLong(names)
  {
    CountMonotone(names, i, j);
    CountMonotone(names, j, |names|);
    assert names[..|names|] == names;
  }

  lemma LongIdBound(names: seq<seq<byte>>, i: nat)
    requires i < |names| && IsLong(names[i])
    ensures 1 <= LongId(names, i) <= CountLong(names)
  {
    CountMonotone(names, i, |names|);
    assert names[..|names|] == names;
  }

  /** Index of the `k`-th shown entry, counting from 0. */
  function NthShown(names: seq<seq<byte>>, k: nat): (i: nat)
    requires k < CountShown(names)
    ensures i < |names| && !IsHidden(names[i]) && CountShown(names[..i]) == k
    decreases |names|
  {
    var front := names[..|names| - 1];
    if k < CountShown(front) then
      var i := NthShown(front, k);
      assert front[..i] == names[..i];
      i
    else
      |names| - 1
  }

  /** Index of the `k`-th long entry, counting from 0: the entry whose long id is `k + 1`. */
  function NthLong(names: seq<seq<byte>>, k: nat): (i: nat)
    requires k < CountLong(names)
    ensures i < |names| && IsLong(names[i]) && LongId(names, i) == k + 1
    decreases |names|
  {
    var front := names[..|names| - 1];
    if k < CountLong(front) then
      var i := NthLong(front, k);
      assert front[..i] == names[..i];
      i
    else
      |names| - 1
  }

  /** The shown entry counted `k`-th is the only one with that count. */
  lemma NthShownOf(names: seq<seq<byte>>, i: nat)
    requires i < |names| && !IsHidden(names[i])
    ensures CountShown(names[..i]) < CountShown(names)
    ensures NthShown(names, CountShown(names[..i])) == i
  {
    CountMonotone(names, i, |names|);
    assert names[..|names|] == names;
    var k := CountShown(names[..i]);
    var i' := NthShown(names, k);
    if i < i' {
      CountMonotone(names, i, i');
    } else if i' < i {
      CountMonotone(names, i', i);
    }
  }

  /** The long entry with id `L` is the only one with that id. */
  lemma NthLongOf(names: seq<seq<byte>>, i: nat)
    requires i < |names| && IsLong(names[i])
    ensures LongId(names, i) - 1 < CountLong(names)
    ensures NthLong(names, LongId(names, i) - 1) == i
  {
    LongIdBound(names, i);
    var i' := NthLong(names, LongId(names, i) - 1);
    if i < i' {
      LongIdRange(names, i, i');
    } else if i' < i {
      LongIdRange(names, i', i);
    }
  }

  // ---------------------------------------------------------------------
  // Row placement

  /** Rows of a menu with `extra` leading rows: at least one below them, the placeholder when the catalog shows nothing. */
  function NumItems(names: seq<seq<byte>>, extra: nat): nat {
    (if MenuSize(names) == 0 then 1 else MenuSize(names)) + extra
  }

  /** Row of shown entry `i`: the shown entries fill the rows after the leading ones, in catalog order. */
  function PrimaryRow(names: seq<seq<byte>>, extra: nat, i: nat): nat
    requires i < |names|
  {
    extra + CountShown(names[..i])
  }

  /** Row of the second label of long entry `i`: after all primary rows, in long-id order. */
  function SecondaryRow(names: seq<seq<byte>>, extra: nat, i: nat): nat
    requires i < |names|
  {
    extra + CountShown(names) + CountLong(names[..i])
  }

  /** The menus compute that row as `extra + size - long_event_count + long_id - 1`. */
  lemma SecondaryRowFormula(names: seq<seq<byte>>, extra: nat, i: nat)
    requires i < |names| && IsLong(names[i])
    ensures extra + MenuSize(names) - CountLong(names) + LongId(names, i) - 1 == SecondaryRow(names, extra, i)
  {
    MenuSizeCounts(names);
  }

  /** What a row of the menu body shows. */
  datatype Slot = Placeholder | Primary(entry: nat) | Secondary(entry: nat) | Outside

  /**
   * The owner of each row, read directly off the counts: the primary rows
   * of the shown entries in catalog order, then the secondary rows of the
   * long entries in long-id order.
   */
  function RowOwner(names: seq<seq<byte>>, extra: nat, r: int): (s: Slot)
    ensures s.Primary? ==> s.entry < |names| && !IsHidden(names[s.entry])
    ensures s.Secondary? ==> s.entry < |names| && IsLong(names[s.entry])
  {
    var shown := CountShown(names);
    if r < extra then Outside
    else if MenuSize(names) == 0 then (if r == extra then Placeholder else Outside)
    else if r < extra + shown then Primary(NthShown(names, r - extra))
    else if r < extra + shown + CountLong(names) then Secondary(NthLong(names, r - extra - shown))
    else Outside
  }

  /**
   * The placement and the owner agree: every shown entry's primary row and
   * every long entry's secondary row are owned by that entry, and they lie
   * inside the menu body `[extra, extra + size)`.
   */
  /** A shown entry's primary row lies among the primary rows. */
  lemma PrimaryRowRange(names: seq<seq<byte>>, extra: nat, i: nat)
    requires i < |names| && !IsHidden(names[i])
    ensures extra <= PrimaryRow(names, extra, i) < extra + CountShown(names)
  {
    CountMonotone(names, i, |names|);
    assert names[..|names|] == names;
  }

  lemma PrimaryRowOwner(names: seq<seq<byte>>, extra: nat, i: nat)
    requires i < |names| && !IsHidden(names[i])
    ensures extra <= PrimaryRow(names, extra, i) < extra + CountShown(names)
    ensures RowOwner(names, extra, PrimaryRow(names, extra, i)) == Primary(i)
  {
    NthShownOf(names, i);
    RowOwnerPrimary(names, extra, CountShown(names[..i]));
  }

  /** The `k`-th row after the leading ones belongs to the `k`-th shown entry. */
  lemma RowOwnerPrimary(names: seq<seq<byte>>, extra: nat, k: nat)
    requires k < CountShown(names)
    ensures RowOwner(names, extra, extra + k) == Primary(NthShown(names, k))
  {
    MenuSizeCounts(names);
  }

  lemma SecondaryRowOwner(names: seq<seq<byte>>, extra: nat, i: nat)
    requires i < |names| && IsLong(names[i])
    ensures extra + CountShown(names) <= SecondaryRow(names, extra, i) < extra + MenuSize(names)
    ensures RowOwner(names, extra, SecondaryRow(names, extra, i)) == Secondary(i)
  {
    SecondaryRowRange(names, extra, i);
    SecondaryRowIndex(names, extra, i);
  }

  lemma SecondaryRowRange(names: seq<seq<byte>>, extra: nat, i: nat)
    requires i < |names| && IsLong(names[i])
    ensures extra + CountShown(names) <= SecondaryRow(names, extra, i) < extra + MenuSize(names)
  {
    LongIdBound(names, i);
    MenuSizeCounts(names);
  }

  lemma SecondaryRowIndex(names: seq<seq<byte>>, extra: nat, i: nat)
    requires i < |names| && IsLong(names[i])
    ensures RowOwner(names, extra, SecondaryRow(names, extra, i)) == Secondary(i)
  {
    var k := CountLong(names[..i]);
    assert k < CountLong(names) && NthLong(names, k) == i by {
      NthLongOf(names, i);
    }
    MenuSizeCounts(names);
  }

  /** Conversely, each row of the body is the primary or secondary row of its owner. */
  lemma OwnerRow(names: seq<seq<byte>>, extra: nat, r: int)
    ensures RowOwner(names, extra, r).Primary? ==> PrimaryRow(names, extra, RowOwner(names, extra, r).entry) == r
    ensures RowOwner(names, extra, r).Secondary? ==> SecondaryRow(names, extra, RowOwner(names, extra, r).entry) == r
    ensures RowOwner(names, extra, r) == Outside <==> r < extra || r >= NumItems(names, extra)
    ensures RowOwner(names, extra, r) == Placeholder <==> MenuSize(names) == 0 && r == extra
  {
    MenuSizeCounts(names);
  }

  // ---------------------------------------------------------------------
  // Begin and end labels

  /** Size of the formatting buffer of `preprocess_long_events`. */
  const LABEL_BUFFER: nat := 128

  /** The prefix followed by the name without its '+', as `snprintf` leaves it in 128 bytes. */
  function Label(prefix: seq<byte>, name: seq<byte>): (r: seq<byte>)
    requires |name| > 0
    ensures |r| < LABEL_BUFFER
    ensures NoNul(prefix) && NoNul(name) ==> NoNul(r)
  {
    Truncate(prefix + name[1..], LABEL_BUFFER - 1)
  }

  /** One label per long entry, in catalog order. */
  function Labels(prefix: seq<byte>, names: seq<seq<byte>>): (r: seq<seq<byte>>)
    ensures |r| == CountLong(names)
  {
    if |names| == 0 then []
    else
      var last := names[|names| - 1];
      Labels(prefix, names[..|names| - 1]) + if IsLong(last) then [Label(prefix, last)] else []
  }

  /** The label list of a catalog prefix is a prefix of the whole label list. */
  lemma {:induction false} LabelsPrefix(prefix: seq<byte>, names: seq<seq<byte>>, i: nat)
    requires i <= |names|
    ensures Labels(prefix, names[..i]) <= Labels(prefix, names)
    decreases |names|
  {
    if i < |names| {
      var front := names[..|names| - 1];
      assert front[..i] == names[..i];
      LabelsPrefix(prefix, front, i);
    } else {
      assert names[..i] == names;
    }
  }

  /** The label of long entry `i` sits at its long id minus one. */
  lemma LabelAt(prefix: seq<byte>, names: seq<seq<byte>>, i: nat)
    requires i < |names| && IsLong(names[i])
    ensures LongId(names, i) - 1 < |Labels(prefix, names)|
    ensures Labels(prefix, names)[LongId(names, i) - 1] == Label(prefix, names[i])
  {
    assert names[..i + 1][..i] == names[..i];
    LabelsPrefix(prefix, names, i + 1);
  }
}

=== FILE: strlist.dfy ===
/**
 * The string table (`struct string_list`): one growable byte buffer holding
 * NUL-terminated strings back to back, and a fixed array of 83 offsets, one
 * per string, in insertion order.
 */
module StrList {
  import opened Base
  import opened Dict

  /** STRLIST_MAX_SIZE: slots of the offsets array. */
  const MAX_SIZE: nat := 83
  /** Largest value of the 16-bit `size` field. */
  const MAX_BYTES: nat := 65535

  /** Largest number of strings a table holds: `strlist_append` refuses when `count + 1 >= 83`. */
  const MAX_COUNT: nat := MAX_SIZE - 1

  /** Bytes that `strs`, each with its terminator, take after the leading NUL. */
  function TotalBytes(strs: seq<seq<byte>>): nat {
    if |strs| == 0 then 0 else TotalBytes(strs[..|strs| - 1]) + |strs[|strs| - 1]| + 1
  }

  /** Appending one string grows the byte total by its length and terminator. */
  lemma TotalBytesSnoc(strs: seq<seq<byte>>, s: seq<byte>)
    ensures TotalBytes(strs + [s]) == TotalBytes(strs) + |s| + 1
  {
    assert (strs + [s])[..|strs|] == strs;
  }

  /** Taking more keys of a dictionary never needs fewer bytes. */
  lemma {:induction false} FieldBytesMonotone(dict: Dictionary, first: nat, m: nat, n: nat)
    requires m <= n
    ensures TotalBytes(StringFields(dict, first, m)) <= TotalBytes(StringFields(dict, first, n))
    decreases n - m
  {
    if m < n {
      FieldBytesMonotone(dict, first, m, n - 1);
      var p := StringFields(dict, first, n - 1);
      match StringAt(dict, first + n - 1)
      case Some(s) => TotalBytesSnoc(p, s);
      case None => assert p + [] == p;
    }
  }

  /** The next string field still fits when the whole range does. */
  lemma FieldRoom(dict: Dictionary, first: nat, i: nat, m: nat, size: nat, s: CStr)
    requires i < m && StringAt(dict, first + i) == Some(s)
    requires size <= 1 + TotalBytes(StringFields(dict, first, i))
    requires Fits(StringFields(dict, first, m))
    ensures StringFields(dict, first, i + 1) == StringFields(dict, first, i) + [s]
    ensures size + |s| + 1 <= MAX_BYTES
  {
    FieldBytesMonotone(dict, first, i + 1, m);
    TotalBytesSnoc(StringFields(dict, first, i), s);
  }

  /** A reset table can take all of `strs` without its 16-bit size wrapping. */
  predicate Fits(strs: seq<seq<byte>>) {
    1 + TotalBytes(strs) <= MAX_BYTES
  }

  /** `count` clamped as `strlist_set_from_dict` clamps it. */
  function Clamp(n: nat): (r: nat)
    ensures r <= MAX_COUNT
    ensures n < MAX_SIZE ==> r == n
  {
    if n >= MAX_SIZE then MAX_SIZE - 1 else n
  }

  /** The string at offset `off` of `data` is terminated inside it and reads `s`. */
  predicate Holds(data: seq<byte>, off: nat, s: seq<byte>) {
    Terminated(data, off) && StrAt(data, off) == s
  }

  class StringList {
    /** The buffer `data[0 .. size)`; empty while no buffer is allocated. */
    var data: seq<byte>
    var size: nat
    const offsets: array<nat>
    var count: nat

    /** The strings of the table, in index order. */
    ghost var Strings: seq<seq<byte>>

    /**
     * Every offset below `count` starts a string terminated inside the
     * buffer, the buffer starts with a NUL, and both fields stay in their
     * C widths.
     */
    ghost predicate Valid()
      reads this, offsets
    {
      && offsets.Length == MAX_SIZE
      && count <= MAX_COUNT
      && size == |data| <= MAX_BYTES
      && (size > 0 ==> data[0] == NUL)
      && (count > 0 ==> size > 0)
      && |Strings| == count
      && forall i {:trigger Holds(data, offsets[i], Strings[i])} | 0 <= i < count ::
           Holds(data, offsets[i], Strings[i])
    }

    /** A zero-initialised `struct string_list` (`= {0}`): no buffer, no strings. */
    constructor ()
      ensures Valid() && fresh(offsets)
      ensures size == 0 && count == 0 && Strings == []
    {
      data := [];
      size := 0;
      offsets := new nat[MAX_SIZE];
      count := 0;
      Strings := [];
    }

    /** Appending `s` keeps `size` within 16 bits. */
    predicate Room(s: seq<byte>)
      reads this
    {
      |s| == 0 || (if size == 0 then 1 else size) + |s| + 1 <= MAX_BYTES
    }

    /** STRLIST_UNSAFE_ITEM: no bounds check, so the caller guarantees `i < count`. */
    function UnsafeItem(i: nat): (r: seq<byte>)
      reads this, offsets
      requires Valid() && i < count
      ensures r == Strings[i] && NoNul(r)
    {
      assert Holds(data, offsets[i], Strings[i]);
      StrAt(data, offsets[i])
    }

    /** STRLIST_ITEM: the string at `i`, or a null pointer from `count` on. */
    function Item(i: nat): (r: Option<seq<byte>>)
      reads this, offsets
      requires Valid()
      ensures i < count ==> r == Some(Strings[i])
      ensures i >= count ==> r == None
    {
      if i < count then Some(UnsafeItem(i)) else None
    }

    /**
     * `strlist_append`. The buffer is assumed to be allocated successfully.
     * An empty string records offset 0, the leading NUL; a non-empty one is
     * copied with its NUL at the end of the buffer.
     */
    method Append(s: seq<byte>) returns (ok: bool)
      requires Valid() && NoNul(s) && (count + 1 >= MAX_SIZE || Room(s))
      modifies this, offsets
      ensures Valid()
      ensures ok <==> old(count) + 1 < MAX_SIZE
      ensures Strings == if ok then old(Strings) + [s] else old(Strings)
      ensures count == if ok then old(count) + 1 else old(count)
      ensures forall k | 0 <= k < MAX_SIZE && k != old(count) :: offsets[k] == old(offsets[k])
      ensures !ok ==> data == old(data) && offsets[old(count)] == old(offsets[count])
      ensures ok && s == [] ==>
        offsets[old(count)] == 0 && data == (if old(size) == 0 then [NUL] else old(data))
      ensures ok && s != [] && old(size) > 0 ==>
        offsets[old(count)] == old(size) && data == old(data) + s + [NUL]
      ensures ok && s != [] && old(size) == 0 ==>
        offsets[0] == 1 && data == [NUL] + s + [NUL]
    {
      if count + 1 >= MAX_SIZE {
        return false;
      }
      if |s| == 0 {
        if size == 0 {
          // malloc(1); the byte is set to NUL here, see AppendEmptyAsWritten
          data := [NUL];
          size := 1;
        }
        offsets[count] := 0;
        forall i | 0 <= i < count
          ensures Holds(data, offsets[i], Strings[i])
        {
        }
        assert NulIndex(data, 0) == 0;
        Strings := Strings + [s];
        count := count + 1;
        return true;
      }
      if size == 0 {
        data := [NUL] + s + [NUL];
        size := |data|;
        count := 1;
        offsets[0] := 1;
        StrAtPlaced([NUL], s, []);
        assert [NUL] + s + [NUL] + [] == data;
        Strings := [s];
        return true;
      }
      ghost var before := data;
      data := data + s + [NUL];
      offsets[count] := size;
      forall i | 0 <= i < count
        ensures Holds(data, offsets[i], Strings[i])
      {
        assert old(Holds(data, offsets[i], Strings[i]));
        StrAtExtend(before, s + [NUL], offsets[i]);
        assert before + (s + [NUL]) == data;
      }
      StrAtPlaced(before, s, []);
      assert before + s + [NUL] + [] == data;
      size := |data|;
      Strings := Strings + [s];
      count := count + 1;
      return true;
    }

    /**
     * The empty-string path of `strlist_append` as written, on a table that
     * has no buffer yet: `malloc(1)` returns a byte holding whatever the
     * allocator left there (`garbage`) and nothing stores a NUL in it, yet
     * offset 0 is recorded. The string at that offset then runs past the
     * one-byte buffer.
     */
    method AppendEmptyAsWritten(garbage: byte)
      requires Valid() && size == 0
      modifies this, offsets
      ensures data == [garbage] && size == 1 && count == 1 && offsets[0] == 0
      ensures garbage != NUL ==> !Terminated(data, offsets[0]) && !Valid()
    {
      data := [garbage];
      size := 1;
      count := 0;
      offsets[count] := 0;
      count := count + 1;
      Strings := [StrAt(data, 0)];
    }

    /** `strlist_prepare`: allocate the one-byte buffer if there is none; never touches `count`. */
    method Prepare() returns (ok: bool)
      requires Valid()
      modifies this
      ensures Valid() && ok
      ensures count == old(count) && Strings == old(Strings)
      ensures old(size) > 0 ==> data == old(data) && size == old(size)
      ensures old(size) == 0 ==> data == [NUL] && size == 1
    {
      if size > 0 {
        return true;
      }
      // malloc(1); the byte is set to NUL here, see PrepareAsWritten
      data := [NUL];
      size := 1;
      return true;
    }

    /**
     * `strlist_prepare` as written: the byte `malloc(1)` returns is never
     * stored to, so it is the parameter `garbage`. When it is not a NUL the
     * buffer no longer starts with one, and a later `strlist_append(list, "")`
     * records offset 0 for a string that runs past the buffer.
     */
    method PrepareAsWritten(garbage: byte) returns (ok: bool)
      requires Valid()
      modifies this
      ensures ok && count == old(count) && Strings == old(Strings)
      ensures old(size) > 0 ==> data == old(data) && size == old(size) && Valid()
      ensures old(size) == 0 ==> data == [garbage] && size == 1
      ensures old(size) == 0 && garbage != NUL ==> !Valid() && !Terminated(data, 0)
    {
      if size > 0 {
        return true;
      }
      data := [garbage];
      size := 1;
      return true;
    }

    /** `strlist_reset`: back to the single leading NUL and no strings. */
    method Reset() returns (ok: bool)
      requires Valid()
      modifies this
      ensures Valid() && ok
      ensures data == [NUL] && size == 1 && count == 0 && Strings == []
    {
      data := [NUL];
      size := 1;
      count := 0;
      Strings := [];
      return true;
    }

    /**
     * `strlist_set_from_dict`: reset, then append in key order the string
     * tuples among the `count` keys from `firstKey`, skipping absent keys
     * and tuples of another type; `count` is clamped to 82.
     */
    method SetFromDict(dict: Dictionary, firstKey: nat, n: byte) returns (ok: bool)
      requires Valid()
      requires Fits(StringFields(dict, firstKey, Clamp(n)))
      modifies this, offsets
      ensures Valid() && ok
      ensures Strings == StringFields(dict, firstKey, Clamp(n))
    {
      ok := Reset();
      var m := Clamp(n);
      var i := 0;
      while i < m
        invariant 0 <= i <= m
        invariant Valid()
        invariant Strings == StringFields(dict, firstKey, i)
        invariant 1 <= size <= 1 + TotalBytes(Strings)
        invariant ok
      {
        var field := StringAt(dict, firstKey + i);
        if field.None? {
          assert StringFields(dict, firstKey, i + 1) == Strings + [];
          i := i + 1;
          continue;
        }
        var s := field.value;
        FieldRoom(dict, firstKey, i, m, size, s);
        TotalBytesSnoc(Strings, s);
        var appended := Append(s);
        // the source returns false on a failed append; with at most 82 keys it cannot fail
        assert appended;
        i := i + 1;
      }
    }
  }
}

=== FILE: strset.dfy ===
/**
 * The sorted string set: a string table whose offsets are kept in strictly
 * ascending byte order, searched by bisection. Inclusion appends the new
 * string at the end of the buffer and moves its offset into sorted position.
 */
module StrSet {
  import opened Base
  import opened StrList

  /** Strictly ascending: no duplicates, every string below the ones after it. */
  predicate Sorted(strs: seq<seq<byte>>) {
    forall i, j | 0 <= i < j < |strs| :: Less(strs[i], strs[j])
  }

  /** `idx` splits `strs` into the strings below `key` and those above it. */
  predicate Between(strs: seq<seq<byte>>, key: seq<byte>, idx: nat) {
    && idx <= |strs|
    && (forall j | 0 <= j < idx :: Less(strs[j], key))
    && (forall j | idx <= j < |strs| :: Less(key, strs[j]))
  }

  /** `s` with its last element moved to position `idx`, the ones from `idx` on shifted up by one. */
  function Rotated<T>(s: seq<T>, idx: nat): (r: seq<T>)
    requires idx < |s|
    ensures |r| == |s| && r[idx] == s[|s| - 1]
    ensures forall j | 0 <= j < idx :: r[j] == s[j]
    ensures forall j | idx < j < |s| :: r[j] == s[j - 1]
  {
    s[..idx] + [s[|s| - 1]] + s[idx..|s| - 1]
  }

  lemma LessAsymmetric(a: seq<byte>, b: seq<byte>)
    requires Less(a, b)
    ensures !Less(b, a) && a != b
  {
    CompareFlip(a, b);
    CompareZero(a, b);
  }

  /** Below a split point nothing equals the key, so a split point exists only for an absent key. */
  lemma BetweenAbsent(strs: seq<seq<byte>>, key: seq<byte>, idx: nat)
    requires Between(strs, key, idx)
    ensures key !in strs
  {
    if key in strs {
      var j :| 0 <= j < |strs| && strs[j] == key;
      LessIrreflexive(key);
    }
  }

  /** Moving the appended key to its split point keeps a sorted set sorted. */
  lemma InsertSorted(strs: seq<seq<byte>>, key: seq<byte>, idx: nat)
    requires Sorted(strs) && Between(strs, key, idx)
    ensures Rotated(strs + [key], idx) == strs[..idx] + [key] + strs[idx..]
    ensures Sorted(strs[..idx] + [key] + strs[idx..])
  {
    var t := strs[..idx] + [key] + strs[idx..];
    assert |t| == |strs| + 1;
    forall i, j | 0 <= i < j < |t|
      ensures Less(t[i], t[j])
    {
      if j < idx {
        assert t[i] == strs[i] && t[j] == strs[j];
      } else if j == idx {
        assert t[i] == strs[i] && t[j] == key;
      } else if i < idx {
        assert t[i] == strs[i] && t[j] == strs[j - 1];
      } else if i == idx {
        assert t[i] == key && t[j] == strs[j - 1];
      } else {
        assert t[i] == strs[i - 1] && t[j] == strs[j - 1];
      }
    }
    var r := Rotated(strs + [key], idx);
    assert forall k | 0 <= k < |t| :: r[k] == t[k];
  }

  /**
   * When the append inside inclusion is refused because the table is full,
   * the rotation still runs on the existing strings; unless the split point
   * is the last index, the result is no longer sorted.
   */
  lemma RotatedUnsorted(strs: seq<seq<byte>>, idx: nat)
    requires Sorted(strs) && idx + 1 < |strs|
    ensures !Sorted(Rotated(strs, idx))
  {
    var r := Rotated(strs, idx);
    assert r[idx] == strs[|strs| - 1] && r[idx + 1] == strs[idx];
    LessAsymmetric(strs[idx], strs[|strs| - 1]);
  }

  /**
   * `search`: bisection over the open interval `(low, high)`, comparing the
   * key with `strncmp` over its length and treating a longer stored item as
   * greater. A hit returns its index; a miss returns `high`, which on a
   * sorted set is the split point.
   */
  method Search(strset: StringList, key: seq<byte>) returns (found: bool, idx: nat)
    requires strset.Valid() && NoNul(key)
    ensures idx <= strset.count
    ensures found ==> idx < strset.count && strset.Strings[idx] == key
    ensures Sorted(strset.Strings) ==> (found <==> key in strset.Strings)
    ensures Sorted(strset.Strings) && !found ==> Between(strset.Strings, key, idx)
  {
    ghost var strs := strset.Strings;
    var low: int := -1;
    var high: int := strset.count;
    while high - low > 1
      invariant -1 <= low < high <= strset.count
      invariant Sorted(strs) ==> forall j | 0 <= j <= low :: Less(strs[j], key)
      invariant Sorted(strs) ==> forall j | high <= j < |strs| :: Less(key, strs[j])
      decreases high - low
    {
      var mid := low + (high - low) / 2;
      assert low < mid < high;
      var item := strset.UnsafeItem(mid);
      var res := SearchCompare(key, item);
      SearchCompareIsCompare(key, item);
      if res == 0 {
        CompareZero(key, item);
        found, idx := true, mid;
        if Sorted(strs) {
          assert strs[mid] == key;
        }
        return;
      }
      if res < 0 {
        if Sorted(strs) {
          forall j | mid <= j < |strs|
            ensures Less(key, strs[j])
          {
            if j > mid {
              LessTransitive(key, strs[mid], strs[j]);
            }
          }
        }
        high := mid;
      } else {
        if Sorted(strs) {
          CompareFlip(key, item);
          forall j | 0 <= j <= mid
            ensures Less(strs[j], key)
          {
            if j < mid {
              LessTransitive(strs[j], strs[mid], key);
            }
          }
        }
        low := mid;
      }
    }
    found, idx := false, high;
    if Sorted(strs) {
      BetweenAbsent(strs, key, idx);
    }
  }

  /** `strset_search`: the index of `key`, or no index (INVALID_INDEX) when it is missing. */
  method Find(strset: StringList, key: seq<byte>) returns (r: Option<nat>)
    requires strset.Valid() && NoNul(key)
    ensures r.Some? ==> r.value < strset.count && strset.Strings[r.value] == key
    ensures Sorted(strset.Strings) ==> (r.None? <==> key !in strset.Strings)
  {
    var found, idx := Search(strset, key);
    if found {
      return Some(idx);
    } else {
      return None;
    }
  }

  /**
   * The `memmove` of `strset_include` on the offsets array: the offset at
   * `n - 1` moves to `idx` and the ones from `idx` to `n - 2` move up one slot.
   */
  method RotateSlots(a: array<nat>, idx: nat, n: nat)
    requires idx < n <= a.Length
    modifies a
    ensures a[..n] == Rotated(old(a[..n]), idx)
    ensures a[n..] == old(a[n..])
  {
    ghost var a0 := a[..];
    var last := a[n - 1];
    var k := n - 1;
    while k > idx
      invariant idx <= k <= n - 1
      invariant forall j | 0 <= j <= k || n <= j < a.Length :: a[j] == a0[j]
      invariant forall j | k < j < n :: a[j] == a0[j - 1]
    {
      a[k] := a[k - 1];
      k := k - 1;
    }
    a[idx] := last;
    assert forall j | 0 <= j < n :: a[..n][j] == Rotated(a0[..n], idx)[j];
    assert forall j | n <= j < a.Length :: a[j] == a0[j];
  }

  /** The rotation applied to a string table: its strings are rotated the same way as its offsets. */
  method Rotate(strset: StringList, idx: nat)
    requires strset.Valid() && idx < strset.count
    modifies strset, strset.offsets
    ensures strset.Valid()
    ensures strset.data == old(strset.data) && strset.size == old(strset.size) && strset.count == old(strset.count)
    ensures strset.Strings == Rotated(old(strset.Strings), idx)
    ensures strset.offsets[..strset.count] == Rotated(old(strset.offsets[..strset.count]), idx)
    ensures strset.offsets[strset.count..] == old(strset.offsets[strset.count..])
  {
    var n := strset.count;
    ghost var off0 := strset.offsets[..];
    ghost var strs := strset.Strings;
    forall i | 0 <= i < n
      ensures Holds(strset.data, off0[i], strs[i])
    {
      assert Holds(strset.data, strset.offsets[i], strset.Strings[i]);
    }
    RotateSlots(strset.offsets, idx, n);
    strset.Strings := Rotated(strset.Strings, idx);
    forall i | 0 <= i < n
      ensures Holds(strset.data, strset.offsets[i], strset.Strings[i])
    {
      var p := if i < idx then i else if i == idx then n - 1 else i - 1;
      assert strset.offsets[..n][i] == Rotated(off0[..n], idx)[i];
      assert strset.offsets[i] == off0[p] && strset.Strings[i] == strs[p];
    }
  }

  /**
   * `strset_include`: a present key leaves the set alone; a missing one is
   * appended and its offset rotated into the split point. The result of the
   * append is not looked at, so on a full set the rotation reorders the
   * existing strings instead (see RotatedUnsorted).
   */
  method Include(strset: StringList, key: seq<byte>) returns (idx: nat)
    requires strset.Valid() && NoNul(key)
    requires strset.count + 1 >= MAX_SIZE || strset.Room(key) || (Sorted(strset.Strings) && key in strset.Strings)
    modifies strset, strset.offsets
    ensures strset.Valid()
    ensures idx <= old(strset.count)
    ensures Sorted(old(strset.Strings)) && key in old(strset.Strings) ==>
      && strset.Strings == old(strset.Strings) && strset.data == old(strset.data)
      && idx < strset.count && strset.Strings[idx] == key
    ensures Sorted(old(strset.Strings)) && key !in old(strset.Strings) ==>
      Between(old(strset.Strings), key, idx)
    ensures Sorted(old(strset.Strings)) && key !in old(strset.Strings) && old(strset.count) + 1 < MAX_SIZE ==>
      && strset.Strings == old(strset.Strings)[..idx] + [key] + old(strset.Strings)[idx..]
      && Sorted(strset.Strings) && strset.Strings[idx] == key
    ensures Sorted(old(strset.Strings)) && key !in old(strset.Strings) && old(strset.count) + 1 >= MAX_SIZE ==>
      strset.Strings == if idx < old(strset.count) then Rotated(old(strset.Strings), idx) else old(strset.Strings)
  {
    ghost var strs := strset.Strings;
    var found;
    found, idx := Search(strset, key);
    if found {
      return;
    }
    var appended := strset.Append(key);
    if idx + 1 < strset.count {
      Rotate(strset, idx);
    }
    if Sorted(strs) && appended {
      InsertSorted(strs, key, idx);
      if idx + 1 == strset.count {
        assert strs[idx..] == [];
      }
    }
  }
}
